=== FILE: README.md ===
# x-clipper in Dafny

x-clipper is a note-taking plugin that clips a post from X (formerly Twitter) into a
markdown note. You paste a post link. The plugin then:

1. extracts the numeric post id from the link;
2. asks the X API v2 for the post;
3. classifies the HTTP answer into the post or one of six errors;
4. derives a file name from the author and the post text;
5. renders the note (a YAML front matter, the post body with its short `t.co` links
   replaced by markdown links, and an optional article section);
6. creates the note in the configured folder, appending the post id to the name if
   that path is already taken.

This project models steps 1 and 3–6 as pure functions over `string` (`seq<char>`) and
proves what they promise.

| file | module | models |
|---|---|---|
| `maybe.dfy` | `Maybe` | `Option` (an absent JSON member, `??`) and `Result` (throw or return) |
| `jsstring.dfy` | `JsString` | the JavaScript string behaviour relied on: the `\s`/`trim` whitespace set, `trim`, `indexOf`, `includes`, `replace` with a string pattern (first occurrence only, with the `$$ $& $` `` ` `` `$'` replacement patterns), `/\n/g` doubling, and the decimal rendering of a status in a template literal |
| `xtypes.dfy` | `XTypes` | the response and post records of `src/fetch-x-post.ts` |
| `postid.dfy` | `PostId` | `extractXPostId` over an already parsed hostname and pathname |
| `filename.dfy` | `Filename` | `sanitize`, `UNSAFE_CHARS`, `TITLE_CHAR_LIMIT`, `generateFilename`; a name's words (its maximal non-whitespace runs) say where its spaces go |
| `markdown.dfy` | `Markdown` | `generateMarkdown`, `resolveUrls`, `formatArticle` |
| `fetch.dfy` | `Fetch` | the status and body classification of `fetchXPost`, and its error messages |
| `clip.dfy` | `Clip` | the pure part of `handleSubmit`: input check, file name, path and collision choice, note contents |

Details of the code that the model keeps:

- The path pattern `\/[^/]+\/status\/(\d+)` is unanchored. Leading segments and
  trailing text are allowed.
- `??` keeps an empty `note_tweet.text` and an empty `plain_text`.
- Both the note-tweet links and the top-level links are resolved.
- Every line feed of an article is doubled.
- The file name is built from the raw, unresolved post text.

`String.prototype.replace` is modelled with its `$` replacement patterns. Only `$$`,
`$&`, `` $` `` and `$'` are expanded; any other `$`, such as `$1`, `$<` or a trailing
`$`, is copied as is. A link whose display or target text contains one of those four
pairs therefore does not appear verbatim. The lemmas that state the literal replacement
require a replacement without `$`, which covers every link without `$` in its display
text or target.

## Model

| member | source | states |
|---|---|---|
| JsString.IsSpace | src/utils.ts:43 | the characters `\s` matches and `trim` removes: ECMAScript's WhiteSpace and LineTerminator sets (tab, line feed, vertical tab, form feed, carriage return, space, no-break space, U+1680, U+2000–U+200A, U+2028, U+2029, U+202F, U+205F, U+3000 and U+FEFF) |
| JsString.Trim | src/utils.ts:29-30 | `trim` is empty exactly when the string is all whitespace; otherwise it neither starts nor ends with whitespace |
| JsString.TrimIsSlice | src/utils.ts:43 | the trimmed string is the slice of the input between a whitespace-only prefix and a whitespace-only suffix |
| JsString.IndexOfFrom | src/markdown.ts:78 | the index found is an occurrence, none occurs before it, and when nothing is found there is no occurrence at all |
| JsString.Includes | src/markdown.ts:78-79 | `includes` holds exactly when the pattern occurs at some index |
| JsString.Substitute | src/markdown.ts:82 | a replacement text without `$` is inserted unchanged; one not starting with `$` keeps its first character |
| JsString.ReplaceFirst | src/markdown.ts:82 | with no occurrence the text is unchanged; otherwise the leftmost occurrence, and only it, is replaced by the expanded replacement, and the text around it is kept |
| JsString.ReplaceFirstLiteral | src/markdown.ts:50 | a replacement without `$` is cut in at the leftmost occurrence exactly, and the result contains it |
| JsString.IndexOfIsFirst | src/markdown.ts:82 | the leftmost occurrence is the index `indexOf` reports |
| JsString.DoubleNewlines | src/markdown.ts:46 | the text grows by exactly its number of line feeds, and halving the line-feed pairs recovers the original: every line feed, and nothing else, is doubled |
| JsString.NatDecimal | src/fetch-x-post.ts:101 | a non-negative status renders as non-empty digits without a leading zero (except for 0) whose value is the status |
| JsString.Decimal | src/fetch-x-post.ts:92 | any integer renders as its digits, with a leading `-` for a negative one, and the digits' value is its magnitude |
| JsString.DecimalInjective | src/fetch-x-post.ts:101 | distinct statuses render differently |
| PostId.AcceptedHost | src/utils.ts:9-12 | after stripping at most one leading `www.`, the host must be `x.com` or `twitter.com`: exactly four host names pass |
| PostId.SubdomainsRejected | src/utils.ts:9-12 | links on `www.www.x.com` or `mobile.x.com` fail with the wrong-domain error whatever their path |
| PostId.NextSlash | src/utils.ts:14 | the first `/` at or after an index, or the end of the path |
| PostId.DigitRunEnd | src/utils.ts:14 | the end of the maximal digit run from an index: `\d+` is greedy |
| PostId.MatchAt | src/utils.ts:14 | the pattern matches at an index exactly when the segment up to the next `/` is non-empty and is followed by `/status/` and a digit; the capture is the whole digit run there |
| PostId.PatternSegmentEndsAtNextSlash | src/utils.ts:14 | whichever segment witnesses a match, it is the one ending at the next `/` |
| PostId.FirstMatchFrom | src/utils.ts:14 | the search returns the leftmost index where the pattern matches, or none when it matches nowhere |
| PostId.ExtractPostId | src/utils.ts:1-20 | the invalid-URL, wrong-domain and no-id errors each occur exactly in their case (the domain is judged before the path); on success the id is a non-empty digit string captured at the leftmost match |
| PostId.MaximalDigitRunUnique | src/utils.ts:14 | two maximal digit runs from one index are the same string |
| PostId.StatusPathShape | src/utils.ts:14 | in `/<segment>/status/<digits><rest>` the pattern matches at the start and the segment ends after `<segment>` |
| PostId.StatusPathRoundTrip | src/utils.ts:14-19 | the id written into `/<segment>/status/<id><rest>` on an accepted host is exactly the id extracted |
| Filename.IsUnsafe | src/utils.ts:22 | the thirteen characters of `UNSAFE_CHARS`, none of which is whitespace, so that removing them and collapsing whitespace do not interfere |
| Filename.RemoveUnsafe | src/utils.ts:22 | the result has none of `/ \ : * ? " < > \| # ^ [ ]`; a single character is deleted when it is one of them and kept otherwise, whitespace included, which with `RemoveUnsafeAppend` fixes the result character by character |
| Filename.CollapseSpaces | src/utils.ts:43 | every whitespace run becomes one space: the result is single-spaced, empty only for empty input, starts and ends with whitespace exactly when the input does, and has no unsafe character when the input has none (`CollapseKeeps` states that it keeps the other characters) |
| Filename.CollapseKeeps | src/utils.ts:43 | collapsing whitespace does not change the kept characters |
| Filename.TrimKeeps | src/utils.ts:43 | trimming does not change the kept characters |
| Filename.Sanitize | src/utils.ts:42-44 | the result is non-empty, has no unsafe character, no whitespace at either end and no two adjacent whitespace characters; it is `New X Post` when no word survives the removal of unsafe characters, and otherwise exactly those words joined by single spaces |
| Filename.WordsAreWords | src/utils.ts:43 | each word is a non-empty run without whitespace, and a string has no words exactly when it is all whitespace |
| Filename.WordsAppend | src/utils.ts:43 | splitting a string at whitespace splits its words |
| Filename.WordsOfJoin | src/utils.ts:43 | words joined by single spaces split back into the same words |
| Filename.JoinOfWords | src/utils.ts:43 | a single-spaced string without whitespace at its ends is its words joined by single spaces |
| Filename.CollapseWords | src/utils.ts:43 | turning each whitespace run into one space keeps the words |
| Filename.TrimWords | src/utils.ts:43 | trimming keeps the words |
| Filename.FallbackIsClean | src/utils.ts:43 | the fallback name `New X Post` is itself clean |
| Filename.SanitizeFixesClean | src/utils.ts:43 | sanitizing a clean name leaves it unchanged |
| Filename.SanitizeIdempotent | src/utils.ts:43 | sanitizing twice is sanitizing once, the fallback included |
| Filename.RemoveUnsafeFixes | src/utils.ts:43 | removing unsafe characters from a string without any changes nothing |
| Filename.CollapseFixes | src/utils.ts:43 | collapsing a single-spaced string changes nothing |
| Filename.TrimFixes | src/utils.ts:43 | trimming a string without whitespace at its ends changes nothing |
| Filename.RemoveUnsafeAppend | src/utils.ts:43 | removing unsafe characters distributes over concatenation |
| Filename.CollapseAppend | src/utils.ts:43 | collapsing distributes over a concatenation whose first part ends in a non-space |
| Filename.KeptAppend | src/utils.ts:43 | the kept characters of a concatenation are those of its parts |
| Filename.SanitizeKeepsCleanPrefix | src/utils.ts:26-31 | sanitizing a clean author followed by anything keeps the author as a prefix |
| Filename.CleanJoin | src/utils.ts:31 | two clean names joined by one space are clean |
| Filename.Preview | src/utils.ts:30 | the preview is the first `min(100, length)` characters of the trimmed text |
| Filename.NamedAfterAuthor | src/utils.ts:31-39 | for an already clean author, `sanitize(author + " on X - " + subject)` starts with the author and `" on X -"`, and keeps exactly the author's, the separator's and the subject's characters |
| Filename.SeparatorWords | src/utils.ts:31 | the words of `" on X -"` are `on`, `X` and `-` |
| Filename.NameJoinsWords | src/utils.ts:31-39 | for a clean author, `sanitize(author + " on X - " + subject)` is the author's words, then `on`, `X`, `-`, then the subject's words once its unsafe characters are gone, joined by single spaces |
| Filename.GenerateFilename | src/utils.ts:25-40 | the name is clean and starts with the sanitized author and `" on X -"`; it is the sanitized author's words, `on X -` and the words of the subject, joined by single spaces, where the subject is the text preview when the text is not blank, else the article title when that is not blank, else `New Post` |
| Markdown.MarkdownLink | src/markdown.ts:81 | a link is `[`, the text, `](`, the target and `)`: the text occurs at index 1 and the target right after it, and there is no `$` when the parts have none |
| Markdown.EffectiveContent | src/markdown.ts:11 | `note_tweet?.text ?? text`: a present note tweet supplies the content even when its text is empty |
| Markdown.IsBareTcoLink | src/markdown.ts:12 | `/^https:\/\/t\.co\/\S+$/`: the string is `https://t.co/` followed by at least one character and no whitespace; such a string is its own trim |
| Markdown.BareLinkTrimmed | src/markdown.ts:12 | a string that starts with `https://t.co/`, is longer than it and ends in a non-space character is unchanged by `trim` |
| Markdown.Expanded | src/markdown.ts:75 | `expanded_url ?? url` |
| Markdown.Display | src/markdown.ts:76 | `display_url ?? expanded` |
| Markdown.PostUrls | src/markdown.ts:68-71 | the note tweet's links, when there is a note tweet, followed by the top-level links; a missing `entities` or `urls` contributes none |
| Markdown.SkipsLink | src/markdown.ts:78-79 | a link is skipped when its expansion contains both `/status/` and the post id, or contains `x.com/i/article/` |
| Markdown.ResolveUrl | src/markdown.ts:75-82 | one pass of the link loop: a skipped link leaves the text as it is, any other replaces the first occurrence of its short form with `[display](expanded)` |
| Markdown.ResolveUrls | src/markdown.ts:67-86 | the links of the note tweet and then the top-level links are resolved in order; a non-empty text stays non-empty, and a text containing none of the short forms is returned unchanged |
| Markdown.AbsentLinksKeepText | src/markdown.ts:73-85 | links whose short forms do not occur in the text leave it unchanged |
| Markdown.ResolveUrlList | src/markdown.ts:73-85 | resolving links never empties a non-empty text |
| Markdown.ResolveUrlListAppend | src/markdown.ts:68-74 | resolving a concatenated list of links is resolving the first part, then the second |
| Markdown.NoteLinksFirst | src/markdown.ts:68-71 | the note tweet's links are all applied before the top-level links |
| Markdown.SkippedLinksKeepText | src/markdown.ts:78-79 | links whose target contains `/status/` and the post id, or `x.com/i/article/`, leave the text unchanged |
| Markdown.ResolveUrlReplacesFirst | src/markdown.ts:75-82 | a link that is not skipped replaces only the leftmost occurrence of its short form with `[display](expanded)`, where `expanded = expanded_url ?? url` and `display = display_url ?? expanded` |
| Markdown.ResolveUrlAbsent | src/markdown.ts:82 | a short form that does not occur leaves the text unchanged |
| Markdown.ArticleSource | src/markdown.ts:43 | `plain_text ?? preview_text`: a present `plain_text` is used even when empty |
| Markdown.HasArticleText | src/markdown.ts:43-44 | the article contributes text exactly when its source text is present and non-empty |
| Markdown.MentionLink | src/markdown.ts:50 | a profile link starts with `[` and has no `$` when the name has none |
| Markdown.ResolveMention | src/markdown.ts:50 | one pass of the mention loop: the first `@name` is replaced with the profile link |
| Markdown.ResolveMentionList | src/markdown.ts:49-51 | resolving mentions never empties a non-empty text |
| Markdown.ResolveMentionListAppend | src/markdown.ts:48-51 | resolving a concatenated list of mentions is resolving the first part, then the second: the mentions are applied one after another in list order |
| Markdown.ResolveMentionReplacesFirst | src/markdown.ts:50 | a mention replaces only the leftmost `@name` with `[@name](https://x.com/@name)` |
| Markdown.StripScheme | src/markdown.ts:57 | one leading `https://` or `http://` is removed, and nothing else is changed; a URL with neither is returned as is |
| Markdown.ArticleUrlLink | src/markdown.ts:56-61 | an `https://` or `http://` URL is shown without its scheme and targets itself; a URL that starts with `http` but has neither scheme (such as `httpbin.org/x`) is shown and targeted as is, with no `https://` added; any other URL is shown as is and targeted over `https://`; the link always contains the URL, and has no `$` when the URL has none |
| Markdown.ResolveArticleUrl | src/markdown.ts:55-61 | one pass of the article's link loop: the first occurrence of the URL is replaced with its markdown link |
| Markdown.ResolveArticleUrlList | src/markdown.ts:53-62 | resolving article links never empties a non-empty text |
| Markdown.ResolveArticleUrlListAppend | src/markdown.ts:53-62 | resolving a concatenated list of article links is resolving the first part, then the second: the links are applied one after another in list order |
| Markdown.ResolveArticleUrlReplacesFirst | src/markdown.ts:55-61 | an article link whose URL has no `$` replaces only the leftmost occurrence of the URL with the URL's markdown link, and keeps the text around it |
| Markdown.FormatArticle | src/markdown.ts:39-65 | there is article text exactly when an article exists and `plain_text ?? preview_text` is present and non-empty (an empty `plain_text` does not fall back); the text is then non-empty, and it is the source with its line feeds doubled, then its mentions resolved, then its links resolved, in that order |
| Markdown.PlainArticleRoundTrip | src/markdown.ts:43-46 | without annotations the article text is its source with line feeds doubled, and halving them recovers the source |
| Markdown.FrontMatter | src/markdown.ts:18-26 | the front matter opens with the categories and the author key, closes with `---` and a line feed, and the display name, today's date and the creation date can each be read back at a fixed offset |
| Markdown.BodyText | src/markdown.ts:11-14 | the body is either the effective content or empty; it differs from the content exactly when an article is attached and the trimmed content is a bare `t.co` link, and without an article it is the content |
| Markdown.ResolvedBody | src/markdown.ts:16 | an empty body stays empty; any other body has its links resolved |
| Markdown.ArticleSection | src/markdown.ts:33 | the heading `### X Article` between blank lines, then the article text and a line feed |
| Markdown.GenerateMarkdown | src/markdown.ts:4-37 | the note starts with the front matter; without an article it is front matter plus resolved body; with an article and a bare `t.co` body nothing of the body follows; the article section is appended exactly when the article has text |
| Markdown.EmptyNoteHidesText | src/markdown.ts:11 | a present note tweet with empty text hides the post's own text |
| Fetch.IncludedUsers | src/fetch-x-post.ts:111 | `includes?.users ?? []`: the included users, none when `includes` or `users` is missing |
| Fetch.Classify | src/fetch-x-post.ts:91-116 | 401/403, 404, 429, other non-2xx, missing data, and missing or empty users each give their own error, exactly in their case; success carries the data unchanged and the first included user as author |
| Fetch.StatusBeforeBody | src/fetch-x-post.ts:91-104 | a non-2xx status decides the outcome whatever the body holds |
| Fetch.FirstErrorMessage | src/fetch-x-post.ts:107 | `errors?.[0]?.message ?? "Unknown error"`: the first error's message, an empty one included, or `Unknown error` when there is no error |
| Fetch.ErrorMessage | src/fetch-x-post.ts:92-113 | each thrown message starts with its kind's fixed head, followed by exactly what the error carries: the status and then the fixed tail for a failed authentication, the post id for a missing post, the status for another API error, the server's message for missing data; each can be read back after the head, and the length leaves room for nothing else; the rate-limit and unresolved-author messages are fixed texts |
| Fetch.MessageShape | src/fetch-x-post.ts:92-113 | each kind of error message has its own first characters |
| Fetch.ErrorMessageInjective | src/fetch-x-post.ts:92-113 | an error message identifies its error, the status or server message included |
| Clip.FilenameText | src/main.ts:113-115 | the filename text is absent exactly when the trimmed effective content is a bare `t.co` link, and is otherwise the raw content; with an article that is exactly when the note leaves out a non-empty body, while without one the note still shows the body, link included, that the name does without |
| Clip.FilePath | src/main.ts:118-120 | the path is `<folder>/<name>.md`, or `<name>.md` for an empty folder, and the name can be read back from it |
| Clip.FilePathInjective | src/main.ts:120 | within one folder distinct names give distinct paths |
| Clip.FinalName | src/main.ts:128-131 | the final name starts with the generated name; it differs from it exactly when the generated path is taken, and then the rest is a space and the post id, and the final path differs from the taken one |
| Clip.Submit | src/main.ts:89-133 | an empty trimmed input and every extraction failure show the same invalid-URL message; a failed lookup shows its error message; otherwise the note contains exactly the rendered markdown, at the path of the generated name, with the id appended on a collision |
| Clip.NoRequestOnBadInput | src/main.ts:90-104 | a rejected input never reaches the request |

## Left out

- The settings tab, the ribbon, the command and the dialog's DOM, button and notices (`src/settings.ts`, most of `src/main.ts`). They are user interface and settings storage.
- The network request (`requestUrl`), the query string and the bearer header. The HTTP status and the decoded body are inputs instead, as a `request` function in `Clip.Submit`.
- A body that is not valid JSON. In the source, reading `res.json` would throw; here the body is always a decoded `ApiResponse`.
- The WHATWG URL parser behind `new URL`. `ExtractPostId` takes its result: a hostname and pathname, or `None` when the string is not a URL.
- `formatDate` and `new Date()`. Both dates are opaque strings, with `formatDate` a function parameter of `Clip.Submit`. An invalid date that makes `toISOString` throw is not modelled.
- Creating the save folder and writing the file, and `async`/`await` in general. `Clip.Submit` returns the path, name and contents the file would be created with.
- Filename.Preview: counts Unicode scalar values, whereas JavaScript's `substring(0, 100)` counts UTF-16 code units. The two differ only for characters outside the Basic Multilingual Plane.
- Markdown.ResolveUrl: `XUrl.url` is always present here. The source declares it required; a missing one would make `replace` look for the text `undefined`.
- The `start`/`end` offsets and the `title`, `description` and `unwound_url` fields of a link are carried but never used, as in the source.

=== FILE: clip.dfy ===
/**
 * The decision part of submitting a link in the clip dialog (`handleSubmit`,
 * src/main.ts): which message is shown, or which file is created with which contents.
 * The URL parser, the API request, the vault's existence check and the date formatter
 * are parameters; the dialog, the vault writes and the notices are not modelled.
 */
module Clip {
  import opened Maybe
  import opened JsString
  import opened XTypes
  import opened PostId
  import opened Filename
  import opened Markdown
  import opened Fetch

  const InvalidUrlMessage := "Please provide a valid x.com url"

  /** What the API request answers: the status and the decoded body. */
  datatype Reply = Reply(status: int, body: ApiResponse)

  /** What a submission ends in: an error shown in the dialog, or a note written at
      `path` with `contents`, under the file name `name`. */
  datatype Outcome = ShowError(message: string) | Created(path: string, name: string, contents: string)

  /** `textForFilename`: the raw body, or nothing when it is a bare short link. With an
      article that is exactly when the note leaves the body out; without one the note
      still shows the link that the name does without. */
  function FilenameText(post: XPost): (t: Option<string>)
    ensures t.None? <==> IsBareTcoLink(Trim(EffectiveContent(post)))
    ensures t.Some? ==> t.value == EffectiveContent(post)
    ensures post.article.Some? ==> (t.None? <==> BodyText(post) == "" && EffectiveContent(post) != "")
    ensures post.article.None? && t.None? ==>
              BodyText(post) == EffectiveContent(post) && Includes(BodyText(post), TcoPrefix)
  {
    var content := EffectiveContent(post);
    if IsBareTcoLink(Trim(content)) then
      BareLinkInContent(content);
      None
    else Some(content)
  }

  /** Content whose trim is a bare short link is non-empty and contains the link's prefix. */
  lemma BareLinkInContent(content: string)
    requires IsBareTcoLink(Trim(content))
    ensures content != "" && Includes(content, TcoPrefix)
  {
    TrimIsSlice(content);
    var k, t := TrimOffset(content), Trim(content);
    assert content[k..k + |t|] == t;
    assert t[..|TcoPrefix|] == TcoPrefix;
    assert content[k..k + |TcoPrefix|] == t[..|TcoPrefix|];
    assert OccursAt(content, TcoPrefix, k);
  }

  const Extension := ".md"

  /** `getFilePath`: the note `name` inside `folder`, or at the vault root when the
      folder is empty. The name can be read back from the path. */
  function FilePath(folder: string, name: string): (p: string)
    ensures EndsWith(p, Extension)
    ensures folder != "" ==>
              && |p| == |folder| + 1 + |name| + |Extension|
              && StartsWith(p, folder + "/")
              && p[|folder| + 1..|p| - |Extension|] == name
    ensures folder == "" ==> p[..|p| - |Extension|] == name
  {
    if folder != "" then
      var p := folder + "/" + name + Extension;
      assert p[..|folder| + 1] == folder + "/";
      assert p[|folder| + 1..|p| - |Extension|] == name;
      p
    else name + Extension
  }

  /** The same folder and path mean the same name. */
  lemma FilePathInjective(folder: string, a: string, b: string)
    requires FilePath(folder, a) == FilePath(folder, b)
    ensures a == b
  {
    if folder == "" {
      assert a == FilePath(folder, a)[..|FilePath(folder, a)| - |Extension|];
    } else {
      assert a == FilePath(folder, a)[|folder| + 1..|FilePath(folder, a)| - |Extension|];
    }
  }

  /** The name the note is finally written under: on a collision the post id is
      appended once, which moves the note to another path; that path is not checked
      again. */
  function FinalName(folder: string, name: string, postId: string, occupied: string -> bool): (n: string)
    ensures StartsWith(n, name)
    ensures n == name <==> !occupied(FilePath(folder, name))
    ensures n != name ==> n[|name|..] == " " + postId
    ensures occupied(FilePath(folder, name)) ==> FilePath(folder, n) != FilePath(folder, name)
  {
    if occupied(FilePath(folder, name)) then name + " " + postId else name
  }

  /**
   * `handleSubmit` after the dialog's button is pressed: the trimmed input must be
   * non-empty and yield a post id, the lookup must succeed, and then a note named by
   * `GenerateFilename` is created in the trimmed save folder with `GenerateMarkdown`
   * as its contents. `today` is the formatted current date.
   */
  function Submit(
    input: string,
    parse: string -> Option<ParsedUrl>,
    request: string -> Reply,
    savePath: string,
    occupied: string -> bool,
    today: string,
    formatDate: string -> string): (o: Outcome)
    ensures Trim(input) == "" ==> o == ShowError(InvalidUrlMessage)
    ensures ExtractPostId(parse(Trim(input))).Failure? ==> o == ShowError(InvalidUrlMessage)
    ensures Trim(input) != "" && ExtractPostId(parse(Trim(input))).Success? ==>
              var id := ExtractPostId(parse(Trim(input))).value;
              var outcome := Classify(request(id).status, request(id).body);
              && (outcome.Failure? ==> o == ShowError(ErrorMessage(id, outcome.error)))
              && (outcome.Success? ==>
                    var post := outcome.value;
                    var name := GenerateFilename(post.author.name, FilenameText(post),
                                                 if post.article.Some? then Some(post.article.value.title) else None);
                    var folder := Trim(savePath);
                    && o.Created?
                    && o.contents == GenerateMarkdown(post, today, formatDate(post.createdAt))
                    && (!occupied(FilePath(folder, name)) ==> o.name == name)
                    && (occupied(FilePath(folder, name)) ==> o.name == name + " " + id)
                    && o.path == FilePath(folder, o.name))
  {
    var url := Trim(input);
    if url == "" then ShowError(InvalidUrlMessage)
    else
      match ExtractPostId(parse(url))
      case Failure(_) => ShowError(InvalidUrlMessage)
      case Success(id) =>
        var reply := request(id);
        match Classify(reply.status, reply.body)
        case Failure(e) => ShowError(ErrorMessage(id, e))
        case Success(post) =>
          var contents := GenerateMarkdown(post, today, formatDate(post.createdAt));
          var title := if post.article.Some? then Some(post.article.value.title) else None;
          var name := GenerateFilename(post.author.name, FilenameText(post), title);
          var folder := Trim(savePath);
          var finalName := FinalName(folder, name, id, occupied);
          Created(FilePath(folder, finalName), finalName, contents)
  }

  /** An input that yields no post id is rejected before any request: the outcome is the
      same whatever the request would have answered. */
  lemma NoRequestOnBadInput(
    input: string,
    parse: string -> Option<ParsedUrl>,
    request1: string -> Reply,
    request2: string -> Reply,
    savePath: string,
    occupied: string -> bool,
    today: string,
    formatDate: string -> string)
    requires Trim(input) == "" || ExtractPostId(parse(Trim(input))).Failure?
    ensures Submit(input, parse, request1, savePath, occupied, today, formatDate)
         == Submit(input, parse, request2, savePath, occupied, today, formatDate)
         == ShowError(InvalidUrlMessage)
  {
  }
}

=== FILE: fetch.dfy ===
/**
 * The outcome of a post lookup (`fetchXPost`, src/fetch-x-post.ts), given the HTTP
 * status and the decoded response body: the status is judged first, the body only for
 * a 2xx status, and a post is built from the `data` object and the first included user.
 */
module Fetch {
  import opened Maybe
  import opened JsString
  import opened XTypes

  /** The ways the lookup throws, with what each error message carries. */
  datatype FetchError =
    | AuthFailed(status: int)
    | NotFound
    | RateLimited
    | ApiError(status: int)
    | NoData(message: string)
    | AuthorUnresolved

  predicate IsSuccessStatus(status: int) {
    200 <= status < 300
  }

  /** `json.errors?.[0]?.message ?? "Unknown error"`. */
  function FirstErrorMessage(errors: Option<seq<XError>>): string {
    if errors.Some? && |errors.value| > 0 then errors.value[0].message else "Unknown error"
  }

  /** `json.includes?.users ?? []`. */
  function IncludedUsers(body: ApiResponse): seq<XUser> {
    if body.includes.Some? then body.includes.value.users.OrElse([]) else []
  }

  /** The `data` part of a post: the post without its author. */
  function DataOf(post: XPost): PostData {
    PostData(post.id, post.text, post.createdAt, post.noteTweet, post.article, post.entities)
  }

  /** The lookup's decision: the status checks in their order, then the body. */
  function Classify(status: int, body: ApiResponse): (r: Result<XPost, FetchError>)
    ensures r == Failure(AuthFailed(status)) <==> status == 401 || status == 403
    ensures r == Failure(NotFound) <==> status == 404
    ensures r == Failure(RateLimited) <==> status == 429
    ensures r == Failure(ApiError(status)) <==>
              status != 401 && status != 403 && status != 404 && status != 429 && !IsSuccessStatus(status)
    ensures r == Failure(NoData(FirstErrorMessage(body.errors))) <==> IsSuccessStatus(status) && body.data.None?
    ensures r == Failure(AuthorUnresolved) <==>
              IsSuccessStatus(status) && body.data.Some? && IncludedUsers(body) == []
    ensures r.Success? <==> IsSuccessStatus(status) && body.data.Some? && IncludedUsers(body) != []
    ensures r.Success? ==> DataOf(r.value) == body.data.value && r.value.author == IncludedUsers(body)[0]
    ensures r.Failure? && r.error.AuthFailed? ==> r.error.status == status
    ensures r.Failure? && r.error.ApiError? ==> r.error.status == status
    ensures r.Failure? && r.error.NoData? ==> r.error.message == FirstErrorMessage(body.errors)
  {
    if status == 401 || status == 403 then Failure(AuthFailed(status))
    else if status == 404 then Failure(NotFound)
    else if status == 429 then Failure(RateLimited)
    else if !IsSuccessStatus(status) then Failure(ApiError(status))
    else if body.data.None? then Failure(NoData(FirstErrorMessage(body.errors)))
    else
      var users := IncludedUsers(body);
      if |users| == 0 then Failure(AuthorUnresolved)
      else
        var d := body.data.value;
        Success(XPost(d.id, d.text, d.createdAt, d.noteTweet, d.article, d.entities, users[0]))
  }

  /** A status outside the 2xx range decides the outcome whatever the body holds. */
  lemma {:induction false} StatusBeforeBody(status: int, a: ApiResponse, b: ApiResponse)
    requires !IsSuccessStatus(status)
    ensures Classify(status, a) == Classify(status, b)
    ensures Classify(status, a).Failure?
  {
    if status == 401 || status == 403 {
    } else if status == 404 {
    } else if status == 429 {
    } else {
      assert Classify(status, a) == Failure(ApiError(status));
    }
  }

  const AuthFailedHead := "Authentication failed ("
  const AuthFailedTail := "). Check your Bearer Token in settings."
  const NotFoundHead := "Post not found: "
  const RateLimitedMessage := "Rate limited by X API. Try again later."
  const ApiErrorHead := "X API error: "
  const NoDataHead := "X API returned no data: "
  const AuthorUnresolvedMessage := "Could not resolve post author."

  /** The message of the error thrown for a lookup of post `id`: what the error
      carries (the status, the post id or the server's message) can be read back
      right after the message's fixed head. */
  function ErrorMessage(id: string, e: FetchError): (r: string)
    ensures e.AuthFailed? ==> OccursAt(r, Decimal(e.status), |AuthFailedHead|) && EndsWith(r, AuthFailedTail)
    ensures e.NotFound? ==> OccursAt(r, id, |NotFoundHead|) && |r| == |NotFoundHead| + |id|
    ensures e.ApiError? ==> OccursAt(r, Decimal(e.status), |ApiErrorHead|)
                            && |r| == |ApiErrorHead| + |Decimal(e.status)|
    ensures e.NoData? ==> OccursAt(r, e.message, |NoDataHead|) && |r| == |NoDataHead| + |e.message|
    ensures e.AuthFailed? ==> StartsWith(r, AuthFailedHead)
                              && |r| == |AuthFailedHead| + |Decimal(e.status)| + |AuthFailedTail|
    ensures e.NotFound? ==> StartsWith(r, NotFoundHead)
    ensures e.ApiError? ==> StartsWith(r, ApiErrorHead)
    ensures e.NoData? ==> StartsWith(r, NoDataHead)
    ensures e.RateLimited? ==> r == RateLimitedMessage
    ensures e.AuthorUnresolved? ==> r == AuthorUnresolvedMessage
  {
    match e
    case AuthFailed(s) =>
      Framed(AuthFailedHead, Decimal(s), AuthFailedTail);
      AuthFailedHead + Decimal(s) + AuthFailedTail
    case NotFound =>
      Appended(NotFoundHead, id);
      NotFoundHead + id
    case RateLimited => RateLimitedMessage
    case ApiError(s) =>
      Appended(ApiErrorHead, Decimal(s));
      ApiErrorHead + Decimal(s)
    case NoData(m) =>
      Appended(NoDataHead, m);
      NoDataHead + m
    case AuthorUnresolved => AuthorUnresolvedMessage
  }

  /** Both parts of a concatenation can be read back from it. */
  lemma Appended(a: string, b: string)
    ensures StartsWith(a + b, a) && OccursAt(a + b, b, |a|) && |a + b| == |a| + |b|
  {
    assert (a + b)[..|a|] == a;
  }

  /** The three parts of a concatenation can be read back from it. */
  lemma Framed(h: string, x: string, t: string)
    ensures var r := h + x + t;
            StartsWith(r, h) && OccursAt(r, x, |h|) && EndsWith(r, t) && |r| == |h| + |x| + |t|
  {
    var r := h + x + t;
    assert r[..|h|] == h;
    assert r[|h|..|h| + |x|] == x;
    assert r[|r| - |t|..] == t;
  }

  /** The first and seventh characters of each message, which tell the kinds apart. */
  lemma MessageShape(id: string, e: FetchError)
    ensures var msg := ErrorMessage(id, e);
            && |msg| > 6
            && (msg[0] == 'A' <==> e.AuthFailed?)
            && (msg[0] == 'P' <==> e.NotFound?)
            && (msg[0] == 'R' <==> e.RateLimited?)
            && (msg[0] == 'C' <==> e.AuthorUnresolved?)
            && (msg[0] == 'X' && msg[6] == 'e' <==> e.ApiError?)
            && (msg[0] == 'X' && msg[6] == 'r' <==> e.NoData?)
  {
    var msg := ErrorMessage(id, e);
    match e
    case AuthFailed(s) =>
      assert msg[..|AuthFailedHead|] == AuthFailedHead;
    case NotFound =>
      assert msg[..|NotFoundHead|] == NotFoundHead;
    case RateLimited =>
    case ApiError(s) =>
      assert msg[..|ApiErrorHead|] == ApiErrorHead;
    case NoData(m) =>
      assert msg[..|NoDataHead|] == NoDataHead;
    case AuthorUnresolved =>
  }

  /** An error message identifies its error, status and server message included. */
  lemma ErrorMessageInjective(id: string, e1: FetchError, e2: FetchError)
    requires ErrorMessage(id, e1) == ErrorMessage(id, e2)
    ensures e1 == e2
  {
    MessageShape(id, e1);
    MessageShape(id, e2);
    var msg := ErrorMessage(id, e1);
    match e1
    case AuthFailed(a) =>
      var b := e2.status;
      var da, db := Decimal(a), Decimal(b);
      assert |da| == |db|;
      assert da == msg[|AuthFailedHead|..|AuthFailedHead| + |da|];
      assert db == msg[|AuthFailedHead|..|AuthFailedHead| + |db|];
      DecimalInjective(a, b);
    case ApiError(a) =>
      var b := e2.status;
      assert Decimal(a) == msg[|ApiErrorHead|..];
      assert Decimal(b) == msg[|ApiErrorHead|..];
      DecimalInjective(a, b);
    case NoData(m1) =>
      assert m1 == msg[|NoDataHead|..];
      assert e2.message == msg[|NoDataHead|..];
    case NotFound =>
    case RateLimited =>
    case AuthorUnresolved =>
  }
}

=== FILE: filename.dfy ===
/**
 * File-name derivation (`generateFilename` and `sanitize`, src/utils.ts).
 *
 * `sanitize` deletes the characters of `UNSAFE_CHARS`, turns every run of whitespace
 * into one space, trims, and falls back to "New X Post" when nothing is left.
 * `Kept(s)` — the characters of `s` that are neither unsafe nor whitespace, in order —
 * is the invariant that describes its content: sanitizing never adds, drops or
 * reorders a kept character.
 */
module Filename {
  import opened Maybe
  import opened JsString

  /** `TITLE_CHAR_LIMIT`: how many characters of the post text the name takes. */
  const TitleCharLimit := 100

  /** What `sanitize` returns when nothing survives. */
  const FallbackName := "New X Post"

  /** What joins the author to the subject of a name. */
  const Separator := " on X - "

  /** The separator without its final space: what a sanitized name keeps of it
      after the author. */
  const Marker := " on X -"

  /** The subject when neither the post text nor the article title has content. */
  const NewPostTitle := "New Post"

  /** A character of `UNSAFE_CHARS`: `/ \ : * ? " < > | # ^ [ ]`. None of them is
      whitespace, so removing them and collapsing whitespace do not interfere. */
  predicate IsUnsafe(c: char)
    ensures IsUnsafe(c) ==> !IsSpace(c)
  {
    || c == '/' || c == '\\' || c == ':' || c == '*' || c == '?' || c == '"' || c == '<'
    || c == '>' || c == '|' || c == '#' || c == '^' || c == '[' || c == ']'
  }

  predicate NoUnsafe(s: string) {
    forall i | 0 <= i < |s| :: !IsUnsafe(s[i])
  }

  /** Every whitespace character is a plain space and no two are adjacent. */
  predicate SingleSpaced(s: string) {
    forall i | 0 <= i < |s| && IsSpace(s[i]) :: s[i] == ' ' && (i + 1 < |s| ==> !IsSpace(s[i + 1]))
  }

  /** The shape of every sanitized name: non-empty, free of unsafe characters,
      single-spaced, and without whitespace at either end. */
  predicate Clean(s: string) {
    && |s| > 0
    && NoUnsafe(s)
    && SingleSpaced(s)
    && !IsSpace(s[0])
    && !IsSpace(s[|s| - 1])
  }

  /** The characters of `s` that are neither unsafe nor whitespace, in order. */
  function Kept(s: string): string {
    if |s| == 0 then ""
    else (if IsUnsafe(s[0]) || IsSpace(s[0]) then "" else [s[0]]) + Kept(s[1..])
  }

  /** `name.replace(UNSAFE_CHARS, "")`. */
  function RemoveUnsafe(s: string): (r: string)
    ensures NoUnsafe(r)
    ensures Kept(r) == Kept(s)
    ensures |s| == 1 ==> r == if IsUnsafe(s[0]) then "" else s
  {
    if |s| == 0 then ""
    else
      var head := if IsUnsafe(s[0]) then "" else [s[0]];
      KeptAppend(head, RemoveUnsafe(s[1..]));
      head + RemoveUnsafe(s[1..])
  }

  /** `name.replace(/\s+/g, " ")`: every maximal run of whitespace becomes one space. */
  function CollapseSpaces(s: string): (r: string)
    ensures |r| == 0 <==> |s| == 0
    ensures |s| > 0 ==> (IsSpace(r[0]) <==> IsSpace(s[0]))
    ensures |s| > 0 ==> (IsSpace(r[|r| - 1]) <==> IsSpace(s[|s| - 1]))
    ensures SingleSpaced(r)
    ensures NoUnsafe(s) ==> NoUnsafe(r)
    decreases |s|
  {
    if |s| == 0 then ""
    else if IsSpace(s[0]) then
      var k := SkipSpaces(s, 0);
      assert k == |s| ==> Blank(s);
      " " + CollapseSpaces(s[k..])
    else
      [s[0]] + CollapseSpaces(s[1..])
  }

  /** `sanitize`. */
  function Sanitize(name: string): (r: string)
    ensures Clean(r)
    ensures Kept(name) == [] ==> r == FallbackName
    ensures Kept(name) != [] ==> Kept(r) == Kept(name)
    ensures Words(RemoveUnsafe(name)) == [] ==> r == FallbackName
    ensures Words(RemoveUnsafe(name)) != [] ==> r == JoinSpaced(Words(RemoveUnsafe(name)))
  {
    var collapsed := CollapseSpaces(RemoveUnsafe(name));
    var t := Trim(collapsed);
    TrimKeeps(collapsed);
    CollapseKeeps(RemoveUnsafe(name));
    CollapseWords(RemoveUnsafe(name));
    TrimWords(collapsed);
    if |t| == 0 then
      FallbackIsClean();
      FallbackName
    else
      TrimOfSingleSpaced(collapsed);
      JoinOfWords(t);
      t
  }

  /** Trimming a single-spaced string free of unsafe characters leaves it clean, and
      with at least one kept character, unless nothing is left. */
  lemma TrimOfSingleSpaced(s: string)
    requires NoUnsafe(s) && SingleSpaced(s) && |Trim(s)| > 0
    ensures Clean(Trim(s)) && Kept(Trim(s)) != []
  {
    TrimIsSlice(s);
    var t := Trim(s);
    var k := TrimOffset(s);
    assert forall i | 0 <= i < |t| :: t[i] == s[k + i];
    KeptStartsWithFirst(t);
  }

  lemma FallbackIsClean()
    ensures Clean(FallbackName)
  {
    LettersAreClean("New");
    LettersAreClean("X");
    LettersAreClean("Post");
    CleanJoin("New", "X");
    CleanJoin("New" + " " + "X", "Post");
    assert FallbackName == "New" + " " + "X" + " " + "Post";
  }

  predicate IsAsciiLetter(c: char) {
    'A' <= c <= 'Z' || 'a' <= c <= 'z'
  }

  /** A non-empty word of ASCII letters is clean. */
  lemma LettersAreClean(w: string)
    requires |w| > 0 && forall i | 0 <= i < |w| :: IsAsciiLetter(w[i])
    ensures Clean(w)
  {
  }

  /** A string that starts with a kept character has kept characters. */
  lemma KeptStartsWithFirst(s: string)
    requires |s| > 0 && !IsUnsafe(s[0]) && !IsSpace(s[0])
    ensures Kept(s) != []
  {
  }

  /** `text.trim().substring(0, TITLE_CHAR_LIMIT)`: the first (at most) 100 characters
      of the trimmed post text. */
  function Preview(text: string): (p: string)
    ensures |p| == if |Trim(text)| < TitleCharLimit then |Trim(text)| else TitleCharLimit
    ensures StartsWith(Trim(text), p)
  {
    var t := Trim(text);
    if |t| <= TitleCharLimit then t else t[..TitleCharLimit]
  }

  /**
   * `generateFilename`: the name is "<author> on X - <subject>", sanitized, where the
   * author is sanitized first and the subject is the post-text preview when the text
   * has a non-whitespace character, else the article title when it has one, else
   * "New Post". The kept characters of the name are exactly those of the author, of
   * the separator and of the subject.
   */
  function GenerateFilename(authorName: string, text: Option<string>, articleTitle: Option<string>): (r: string)
    ensures Clean(r)
    ensures StartsWith(r, Sanitize(authorName) + Marker)
    ensures text.Some? && !Blank(text.value) ==>
              Kept(r) == Kept(Sanitize(authorName)) + Kept(Separator) + Kept(Preview(text.value))
    ensures (text.None? || Blank(text.value)) && articleTitle.Some? && !Blank(articleTitle.value) ==>
              Kept(r) == Kept(Sanitize(authorName)) + Kept(Separator) + Kept(articleTitle.value)
    ensures (text.None? || Blank(text.value)) && (articleTitle.None? || Blank(articleTitle.value)) ==>
              Kept(r) == Kept(Sanitize(authorName)) + Kept(Separator) + Kept(NewPostTitle)
    ensures text.Some? && !Blank(text.value) ==>
              r == JoinSpaced(Words(Sanitize(authorName)) + ["on", "X", "-"]
                              + Words(RemoveUnsafe(Preview(text.value))))
    ensures (text.None? || Blank(text.value)) && articleTitle.Some? && !Blank(articleTitle.value) ==>
              r == JoinSpaced(Words(Sanitize(authorName)) + ["on", "X", "-"]
                              + Words(RemoveUnsafe(articleTitle.value)))
    ensures (text.None? || Blank(text.value)) && (articleTitle.None? || Blank(articleTitle.value)) ==>
              r == JoinSpaced(Words(Sanitize(authorName)) + ["on", "X", "-"]
                              + Words(RemoveUnsafe(NewPostTitle)))
  {
    var author := Sanitize(authorName);
    var subject :=
      if text.Some? && |Trim(text.value)| > 0 then Preview(text.value)
      else if articleTitle.Some? && |Trim(articleTitle.value)| > 0 then articleTitle.value
      else NewPostTitle;
    NamedAfterAuthor(author, subject);
    NameJoinsWords(author, subject);
    Sanitize(author + Separator + subject)
  }

  /** Sanitizing "<author> on X - <subject>" for a clean author keeps the head
      "<author> on X -" intact and keeps every kept character of the subject. */
  lemma NamedAfterAuthor(author: string, subject: string)
    requires Clean(author)
    ensures var r := Sanitize(author + Separator + subject);
            StartsWith(r, author + Marker) && Kept(r) == Kept(author) + Kept(Separator) + Kept(subject)
  {
    var head := author + Marker;
    var name := author + Separator + subject;
    CleanHead(author);
    assert name == head + (" " + subject);
    SanitizeKeepsCleanPrefix(head, " " + subject);
    KeptAppend(author + Separator, subject);
    KeptAppend(author, Separator);
  }

  /** The words of the separator. */
  lemma SeparatorWords()
    ensures Words(Marker) == ["on", "X", "-"]
  {
    var ws := ["on", "X", "-"];
    assert IsWord("on") && IsWord("X") && IsWord("-");
    WordsOfJoin(ws);
    assert Marker == [' '] + JoinSpaced(ws);
    WordsCons(' ', JoinSpaced(ws));
  }

  /** Sanitizing "<author> on X - <subject>" for a clean author gives the author's
      words, then "on", "X" and "-", then the words of the subject once its unsafe
      characters are gone, each separated by exactly one space. */
  lemma NameJoinsWords(author: string, subject: string)
    requires Clean(author)
    ensures Sanitize(author + Separator + subject)
         == JoinSpaced(Words(author) + ["on", "X", "-"] + Words(RemoveUnsafe(subject)))
  {
    var x := RemoveUnsafe(subject);
    NameRemoveUnsafe(author, subject);
    NameWords(author, x);
    assert Words(author + Marker + ([' '] + x)) != [];
  }

  /** Removing unsafe characters from "<author> on X - <subject>" for a clean author
      touches only the subject. */
  lemma NameRemoveUnsafe(author: string, subject: string)
    requires Clean(author)
    ensures RemoveUnsafe(author + Separator + subject) == author + Marker + ([' '] + RemoveUnsafe(subject))
  {
    var head := author + Marker;
    CleanHead(author);
    assert author + Separator + subject == head + ([' '] + subject);
    RemoveUnsafeAppend(head, [' '] + subject);
    RemoveUnsafeFixes(head);
    RemoveUnsafeAppend([' '], subject);
  }

  /** The words of "<author> on X - <x>" for a clean author: the author's, then
      "on", "X" and "-", then those of `x`. */
  lemma NameWords(author: string, x: string)
    requires Clean(author)
    ensures Words(author + Marker + ([' '] + x)) == Words(author) + ["on", "X", "-"] + Words(x)
  {
    var head := author + Marker;
    CleanHead(author);
    WordsAppend(head, [' '] + x);
    WordsCons(' ', x);
    WordsAppend(author, Marker);
    SeparatorWords();
  }

  lemma CleanHead(author: string)
    requires Clean(author)
    ensures Clean(author + Marker)
  {
    CleanWords();
    CleanJoin(author, "on");
    CleanJoin(author + " " + "on", "X");
    CleanJoin(author + " " + "on" + " " + "X", "-");
    assert author + Marker == author + " " + "on" + " " + "X" + " " + "-";
  }

  lemma CleanWords()
    ensures Clean("on") && Clean("X") && Clean("-")
  {
    LettersAreClean("on");
    LettersAreClean("X");
  }

  /** Two clean names joined by one space make a clean name. */
  lemma CleanJoin(a: string, b: string)
    requires Clean(a) && Clean(b)
    ensures Clean(a + " " + b)
  {
    var s := a + " " + b;
    forall i | 0 <= i < |s| ensures !IsUnsafe(s[i]) {
      if i < |a| {
        assert s[i] == a[i];
      } else if i > |a| {
        assert s[i] == b[i - |a| - 1];
      }
    }
    forall i | 0 <= i < |s| && IsSpace(s[i]) ensures s[i] == ' ' && (i + 1 < |s| ==> !IsSpace(s[i + 1])) {
      if i + 1 < |a| {
        assert s[i] == a[i] && s[i + 1] == a[i + 1];
      } else if i == |a| {
        assert s[i + 1] == b[0];
      } else if i + 1 < |s| {
        assert s[i] == b[i - |a| - 1] && s[i + 1] == b[i - |a|];
      } else {
        assert s[i] == b[i - |a| - 1];
      }
    }
  }

  // ---------------------------------------------------------------------------
  // Idempotence: clean names are fixed points
  // ---------------------------------------------------------------------------

  /** A clean name passes through `sanitize` unchanged. */
  lemma SanitizeFixesClean(s: string)
    requires Clean(s)
    ensures Sanitize(s) == s
  {
    RemoveUnsafeFixes(s);
    CollapseFixes(s);
    TrimFixes(s);
  }

  /** `sanitize(sanitize(x)) == sanitize(x)`, the fallback name included. */
  lemma SanitizeIdempotent(name: string)
    ensures Sanitize(Sanitize(name)) == Sanitize(name)
  {
    SanitizeFixesClean(Sanitize(name));
  }

  lemma {:induction false} RemoveUnsafeFixes(s: string)
    requires NoUnsafe(s)
    ensures RemoveUnsafe(s) == s
    decreases |s|
  {
    if |s| > 0 {
      RemoveUnsafeFixes(s[1..]);
      assert s == [s[0]] + s[1..];
    }
  }

  lemma {:induction false} CollapseFixes(s: string)
    requires SingleSpaced(s)
    ensures CollapseSpaces(s) == s
    decreases |s|
  {
    if |s| > 0 {
      SingleSpacedTail(s);
      CollapseFixes(s[1..]);
      assert s == [s[0]] + s[1..];
      if IsSpace(s[0]) {
        assert s[0] == ' ' && (|s| > 1 ==> !IsSpace(s[1]));
        SpaceFixed(s[1..]);
      } else {
        WordFixed(s[0], s[1..]);
      }
    }
  }

  lemma SpaceFixed(t: string)
    requires CollapseSpaces(t) == t && (|t| == 0 || !IsSpace(t[0]))
    ensures CollapseSpaces([' '] + t) == [' '] + t
  {
    var s := [' '] + t;
    assert s[1..] == t;
    assert SkipSpaces(s, 0) == SkipSpaces(s, 1) == 1;
    CollapseAtSpace(s);
  }

  lemma WordFixed(c: char, t: string)
    requires CollapseSpaces(t) == t && !IsSpace(c)
    ensures CollapseSpaces([c] + t) == [c] + t
  {
    assert ([c] + t)[1..] == t;
    CollapseAtWord([c] + t);
  }

  lemma SingleSpacedTail(s: string)
    requires |s| > 0 && SingleSpaced(s)
    ensures SingleSpaced(s[1..])
  {
    var t := s[1..];
    forall i | 0 <= i < |t| && IsSpace(t[i]) ensures t[i] == ' ' && (i + 1 < |t| ==> !IsSpace(t[i + 1])) {
      assert t[i] == s[i + 1];
      if i + 1 < |t| {
        assert t[i + 1] == s[i + 2];
      }
    }
  }

  lemma SkipSingleSpace(s: string)
    requires |s| > 0 && IsSpace(s[0]) && SingleSpaced(s)
    ensures SkipSpaces(s, 0) == 1 && s[0] == ' '
  {
    assert SkipSpaces(s, 0) == SkipSpaces(s, 1);
  }

  lemma TrimFixes(s: string)
    requires |s| > 0 && !IsSpace(s[0]) && !IsSpace(s[|s| - 1])
    ensures Trim(s) == s
  {
    assert SkipSpaces(s, 0) == 0;
    assert DropTrailingSpaces(s, 0, |s|) == |s|;
  }

  // ---------------------------------------------------------------------------
  // A clean head survives sanitizing of a longer string
  // ---------------------------------------------------------------------------

  lemma SanitizeKeepsCleanPrefix(p: string, q: string)
    requires Clean(p)
    ensures StartsWith(Sanitize(p + q), p)
  {
    RemoveUnsafeAppend(p, q);
    RemoveUnsafeFixes(p);
    var x := RemoveUnsafe(q);
    CollapseAppend(p, x);
    CollapseFixes(p);
    TrimKeepsHead(p, CollapseSpaces(x));
  }

  lemma {:induction false} RemoveUnsafeAppend(a: string, b: string)
    ensures RemoveUnsafe(a + b) == RemoveUnsafe(a) + RemoveUnsafe(b)
    decreases |a|
  {
    if |a| == 0 {
      assert a + b == b;
    } else {
      var head := if IsUnsafe(a[0]) then "" else [a[0]];
      assert RemoveUnsafe(a + b) == head + RemoveUnsafe(a[1..] + b) by {
        assert (a + b)[0] == a[0];
        assert (a + b)[1..] == a[1..] + b;
      }
      RemoveUnsafeAppend(a[1..], b);
    }
  }

  lemma {:induction false} SkipSpacesAppend(p: string, x: string, lo: nat)
    requires lo <= |p| && SkipSpaces(p, lo) < |p|
    ensures SkipSpaces(p + x, lo) == SkipSpaces(p, lo)
    decreases |p| - lo
  {
    assert (p + x)[lo] == p[lo];
    if IsSpace(p[lo]) {
      SkipSpacesAppend(p, x, lo + 1);
    }
  }

  /** Collapsing distributes over a split after a non-whitespace character. */
  lemma {:induction false} CollapseAppend(p: string, x: string)
    requires |p| > 0 && !IsSpace(p[|p| - 1])
    ensures CollapseSpaces(p + x) == CollapseSpaces(p) + CollapseSpaces(x)
    decreases |p|
  {
    var s := p + x;
    assert s[0] == p[0];
    if IsSpace(p[0]) {
      var k := SkipSpaces(p, 0);
      SkipSpacesAppend(p, x, 0);
      assert s[k..] == p[k..] + x;
      CollapseAppend(p[k..], x);
      CollapseAtSpace(s);
      CollapseAtSpace(p);
      ConcatAssoc([' '], CollapseSpaces(p[k..]), CollapseSpaces(x));
    } else {
      assert s[1..] == p[1..] + x;
      CollapseAtWord(s);
      CollapseAtWord(p);
      if |p| == 1 {
        assert p[1..] + x == x;
      } else {
        CollapseAppend(p[1..], x);
        ConcatAssoc([p[0]], CollapseSpaces(p[1..]), CollapseSpaces(x));
      }
    }
  }

  /** A whitespace run at the front becomes one space. */
  lemma CollapseAtSpace(s: string)
    requires |s| > 0 && IsSpace(s[0])
    ensures CollapseSpaces(s) == [' '] + CollapseSpaces(s[SkipSpaces(s, 0)..])
  {
  }

  lemma TrimKeepsHead(p: string, y: string)
    requires |p| > 0 && !IsSpace(p[0]) && !IsSpace(p[|p| - 1])
    ensures StartsWith(Trim(p + y), p)
  {
    var s := p + y;
    assert s[0] == p[0];
    assert SkipSpaces(s, 0) == 0;
    var b := DropTrailingSpaces(s, 0, |s|);
    assert s[|p| - 1] == p[|p| - 1];
    assert b >= |p|;
    assert Trim(s) == s[..b];
    assert s[..b][..|p|] == p;
  }

  // ---------------------------------------------------------------------------
  // Kept characters under concatenation, trimming and collapsing
  // ---------------------------------------------------------------------------

  lemma {:induction false} KeptAppend(a: string, b: string)
    ensures Kept(a + b) == Kept(a) + Kept(b)
    decreases |a|
  {
    if |a| == 0 {
      assert a + b == b;
    } else {
      assert (a + b)[1..] == a[1..] + b;
      KeptAppend(a[1..], b);
    }
  }

  lemma {:induction false} KeptOfBlank(s: string)
    requires Blank(s)
    ensures Kept(s) == []
    decreases |s|
  {
    if |s| > 0 {
      KeptOfBlank(s[1..]);
    }
  }

  lemma TrimKeeps(s: string)
    ensures Kept(Trim(s)) == Kept(s)
  {
    TrimIsSlice(s);
    var k := TrimOffset(s);
    var t := Trim(s);
    var e := k + |t|;
    assert s[..e] == s[..k] + t;
    assert s == s[..e] + s[e..];
    KeptAppend(s[..e], s[e..]);
    KeptAppend(s[..k], t);
    KeptOfBlank(s[..k]);
    KeptOfBlank(s[e..]);
  }

  lemma {:induction false} CollapseKeeps(s: string)
    ensures Kept(CollapseSpaces(s)) == Kept(s)
    decreases |s|
  {
    if |s| == 0 {
    } else if IsSpace(s[0]) {
      var k := SkipSpaces(s, 0);
      assert s == s[..k] + s[k..];
      KeptAppend(s[..k], s[k..]);
      KeptOfBlank(s[..k]);
      KeptAppend(" ", CollapseSpaces(s[k..]));
      CollapseKeeps(s[k..]);
    } else {
      KeptAppend([s[0]], CollapseSpaces(s[1..]));
      CollapseKeeps(s[1..]);
    }
  }

  // ---------------------------------------------------------------------------
  // Words: where the spaces of a sanitized name go
  // ---------------------------------------------------------------------------

  /** A word: a non-empty run of non-whitespace characters. */
  predicate IsWord(w: string) {
    |w| > 0 && forall i | 0 <= i < |w| :: !IsSpace(w[i])
  }

  /** The maximal runs of non-whitespace characters of `s`, in order: what is left of
      `s` once it is split at every whitespace run and empty pieces are dropped. */
  function Words(s: string): (ws: seq<string>)
    ensures |s| > 0 && !IsSpace(s[0]) ==> |ws| > 0
    decreases |s|
  {
    if |s| == 0 then []
    else
      var rest := Words(s[1..]);
      if IsSpace(s[0]) then rest
      else if |s| > 1 && !IsSpace(s[1]) then [[s[0]] + rest[0]] + rest[1..]
      else [[s[0]]] + rest
  }

  /** Every piece `Words` returns is a word, and there are none exactly when the
      string is all whitespace. */
  lemma {:induction false} WordsAreWords(s: string)
    ensures forall k | 0 <= k < |Words(s)| :: IsWord(Words(s)[k])
    ensures Words(s) == [] <==> Blank(s)
    decreases |s|
  {
    if |s| > 0 {
      var rest := Words(s[1..]);
      WordsAreWords(s[1..]);
      assert Blank(s) <==> IsSpace(s[0]) && Blank(s[1..]) by {
        assert forall i | 1 <= i < |s| :: s[i] == s[1..][i - 1];
      }
      if !IsSpace(s[0]) && |s| > 1 && !IsSpace(s[1]) {
        var w := [s[0]] + rest[0];
        assert forall i | 1 <= i < |w| :: w[i] == rest[0][i - 1];
        assert Words(s) == [w] + rest[1..];
      }
    }
  }

  lemma {:induction false} WordsOfBlank(s: string)
    requires Blank(s)
    ensures Words(s) == []
    decreases |s|
  {
    if |s| > 0 {
      WordsOfBlank(s[1..]);
    }
  }

  /** `words.join(" ")`. */
  function JoinSpaced(ws: seq<string>): string
    decreases |ws|
  {
    if |ws| == 0 then "" else if |ws| == 1 then ws[0] else ws[0] + " " + JoinSpaced(ws[1..])
  }

  /** The words of a string with one more character in front. */
  lemma WordsCons(c: char, y: string)
    ensures IsSpace(c) ==> Words([c] + y) == Words(y)
    ensures !IsSpace(c) && (|y| == 0 || IsSpace(y[0])) ==> Words([c] + y) == [[c]] + Words(y)
    ensures !IsSpace(c) && |y| > 0 && !IsSpace(y[0]) ==>
              Words([c] + y) == [[c] + Words(y)[0]] + Words(y)[1..]
  {
    assert ([c] + y)[1..] == y;
  }

  /** Splitting at whitespace splits the words. */
  lemma {:induction false} WordsAppend(a: string, b: string)
    requires |a| == 0 || |b| == 0 || IsSpace(a[|a| - 1]) || IsSpace(b[0])
    ensures Words(a + b) == Words(a) + Words(b)
    decreases |a|
  {
    if |a| == 0 {
      assert a + b == b;
    } else {
      var c, x := a[0], a[1..];
      assert a + b == [c] + (x + b);
      assert a == [c] + x;
      if |a| == 1 {
        assert x + b == b;
        WordsCons(c, b);
        WordsCons(c, x);
      } else {
        WordsAppend(x, b);
        assert (x + b)[0] == x[0];
        WordsConsAppend(c, x, b);
      }
    }
  }

  /** The step of `WordsAppend`: one character in front of `x + b`. */
  lemma WordsConsAppend(c: char, x: string, b: string)
    requires |x| > 0
    requires Words(x + b) == Words(x) + Words(b)
    ensures Words([c] + (x + b)) == Words([c] + x) + Words(b)
  {
    WordsCons(c, x + b);
    WordsCons(c, x);
    assert (x + b)[0] == x[0];
    if IsSpace(c) {
    } else if IsSpace(x[0]) {
      assert [[c]] + (Words(x) + Words(b)) == ([[c]] + Words(x)) + Words(b);
    } else {
      ConsHead([c], Words(x), Words(b));
    }
  }

  /** Extending the first word of `u + v` extends the first word of `u`. */
  lemma ConsHead(p: string, u: seq<string>, v: seq<string>)
    requires |u| > 0
    ensures [p + (u + v)[0]] + (u + v)[1..] == ([p + u[0]] + u[1..]) + v
  {
    assert (u + v)[0] == u[0];
    assert (u + v)[1..] == u[1..] + v;
  }

  /** A word is its own only word. */
  lemma {:induction false} WordsOfWord(w: string)
    requires IsWord(w)
    ensures Words(w) == [w]
    decreases |w|
  {
    assert w == [w[0]] + w[1..] && !IsSpace(w[0]);
    WordsCons(w[0], w[1..]);
    if |w| == 1 {
      assert w[1..] == [] && Words(w[1..]) == [];
      assert w == [w[0]];
    } else {
      var u := w[1..];
      assert IsWord(u) by {
        assert forall i | 0 <= i < |u| :: u[i] == w[i + 1];
      }
      WordsOfWord(u);
      assert Words(u)[0] == u && Words(u)[1..] == [];
    }
  }

  /** Splitting words joined by single spaces gives the words back. */
  lemma {:induction false} WordsOfJoin(ws: seq<string>)
    requires forall k | 0 <= k < |ws| :: IsWord(ws[k])
    ensures Words(JoinSpaced(ws)) == ws
    decreases |ws|
  {
    if |ws| == 1 {
      WordsOfWord(ws[0]);
    } else if |ws| > 1 {
      var rest := JoinSpaced(ws[1..]);
      assert JoinSpaced(ws) == ws[0] + ([' '] + rest);
      WordsAppend(ws[0], [' '] + rest);
      WordsOfWord(ws[0]);
      WordsCons(' ', rest);
      WordsOfJoin(ws[1..]);
      assert ws == [ws[0]] + ws[1..];
    }
  }

  /** `JoinSpaced([p + w] + rest) == p + JoinSpaced([w] + rest)`. */
  lemma JoinSpacedPrefix(p: string, ws: seq<string>)
    requires |ws| > 0
    ensures JoinSpaced([p + ws[0]] + ws[1..]) == p + JoinSpaced(ws)
  {
    var vs := [p + ws[0]] + ws[1..];
    assert |vs| == |ws| && vs[0] == p + ws[0] && vs[1..] == ws[1..];
    if |ws| > 1 {
      var tail := JoinSpaced(ws[1..]);
      assert JoinSpaced(vs) == (p + ws[0]) + (" " + tail) by {
        ConcatAssoc(p + ws[0], " ", tail);
      }
      assert JoinSpaced(ws) == ws[0] + (" " + tail) by {
        ConcatAssoc(ws[0], " ", tail);
      }
      ConcatAssoc(p, ws[0], " " + tail);
    }
  }

  lemma ConcatAssoc(a: string, b: string, c: string)
    ensures (a + b) + c == a + (b + c)
  {
  }

  /** A single-spaced string without whitespace at its ends is its words joined by
      single spaces. */
  lemma {:induction false} JoinOfWords(t: string)
    requires |t| == 0 || (SingleSpaced(t) && !IsSpace(t[0]) && !IsSpace(t[|t| - 1]))
    ensures JoinSpaced(Words(t)) == t
    decreases |t|
  {
    if |t| > 0 {
      var u := t[1..];
      assert t == [t[0]] + u;
      WordsCons(t[0], u);
      if |u| > 0 {
        SingleSpacedTail(t);
        assert u[|u| - 1] == t[|t| - 1];
        if IsSpace(u[0]) {
          assert u[0] == ' ' && |u| > 1 && !IsSpace(u[1]) by {
            assert t[1] == u[0];
          }
          var v := u[1..];
          assert u == [' '] + v;
          WordsCons(' ', v);
          SingleSpacedTail(u);
          JoinOfWords(v);
          assert ([[t[0]]] + Words(v))[1..] == Words(v);
        } else {
          JoinOfWords(u);
          JoinSpacedPrefix([t[0]], Words(u));
        }
      }
    }
  }

  /** Collapsing whitespace runs keeps the words. */
  lemma {:induction false} CollapseWords(s: string)
    ensures Words(CollapseSpaces(s)) == Words(s)
    decreases |s|
  {
    if |s| > 0 {
      if IsSpace(s[0]) {
        var k := SkipSpaces(s, 0);
        CollapseWords(s[k..]);
        CollapseWordsAtSpace(s);
      } else {
        CollapseWords(s[1..]);
        CollapseWordsAtWord(s);
      }
    }
  }

  lemma CollapseWordsAtSpace(s: string)
    requires |s| > 0 && IsSpace(s[0])
    requires Words(CollapseSpaces(s[SkipSpaces(s, 0)..])) == Words(s[SkipSpaces(s, 0)..])
    ensures Words(CollapseSpaces(s)) == Words(s)
  {
    var k := SkipSpaces(s, 0);
    var y := CollapseSpaces(s[k..]);
    CollapseAtSpace(s);
    WordsCons(' ', y);
    WordsAfterBlank(s, k);
  }

  lemma CollapseWordsAtWord(s: string)
    requires |s| > 0 && !IsSpace(s[0])
    requires Words(CollapseSpaces(s[1..])) == Words(s[1..])
    ensures Words(CollapseSpaces(s)) == Words(s)
  {
    CollapseAtWord(s);
    WordsOfConsTail(s, CollapseSpaces(s[1..]));
  }

  /** A non-whitespace first character passes through collapsing as is. */
  lemma CollapseAtWord(s: string)
    requires |s| > 0 && !IsSpace(s[0])
    ensures CollapseSpaces(s) == [s[0]] + CollapseSpaces(s[1..])
  {
  }

  /** Replacing the tail of `s` by one with the same words and the same kind of first
      character keeps the words of `s`. */
  lemma WordsOfConsTail(s: string, y: string)
    requires |s| > 0
    requires Words(y) == Words(s[1..])
    requires |y| == 0 <==> |s| == 1
    requires |y| > 0 ==> (IsSpace(y[0]) <==> IsSpace(s[1]))
    ensures Words([s[0]] + y) == Words(s)
  {
    WordsCons(s[0], y);
    WordsCons(s[0], s[1..]);
    assert s == [s[0]] + s[1..];
  }

  /** A whitespace prefix contributes no words. */
  lemma WordsAfterBlank(s: string, k: nat)
    requires k <= |s| && forall i | 0 <= i < k :: IsSpace(s[i])
    ensures Words(s) == Words(s[k..])
  {
    assert s == s[..k] + s[k..];
    assert Blank(s[..k]) by {
      assert forall i | 0 <= i < k :: s[..k][i] == s[i];
    }
    WordsOfBlank(s[..k]);
    if k > 0 {
      assert s[..k][k - 1] == s[k - 1];
    }
    WordsAppend(s[..k], s[k..]);
  }

  /** Trimming keeps the words. */
  lemma TrimWords(s: string)
    ensures Words(Trim(s)) == Words(s)
  {
    TrimIsSlice(s);
    var a := TrimOffset(s);
    var t := Trim(s);
    if |t| == 0 {
      WordsOfBlank(s);
    } else {
      var b := a + |t|;
      assert s == s[..a] + (t + s[b..]);
      WordsOfBlank(s[..a]);
      WordsOfBlank(s[b..]);
      WordsAppend(t, s[b..]);
      WordsAppend(s[..a], t + s[b..]);
    }
  }
}

=== FILE: jsstring.dfy ===
/**
 * The parts of JavaScript's string library that the clipper relies on, over `seq<char>`:
 * whitespace and `trim`, `indexOf`/`includes`/`startsWith`, `replace` with a string
 * pattern (first occurrence, with the `$` replacement patterns), the global newline
 * replacement, and the decimal rendering of numbers inside template literals.
 */
module JsString {
  import opened Maybe

  /** A character in ECMAScript's WhiteSpace or LineTerminator sets: what the regular
      expression class `\s` matches and what `String.prototype.trim` removes. */
  predicate IsSpace(c: char) {
    || c == '\t' || c == '\n' || c == '\U{000B}' || c == '\U{000C}' || c == '\r'
    || c == ' ' || c == '\U{00A0}' || c == '\U{1680}'
    || ('\U{2000}' <= c <= '\U{200A}')
    || c == '\U{2028}' || c == '\U{2029}' || c == '\U{202F}' || c == '\U{205F}'
    || c == '\U{3000}' || c == '\U{FEFF}'
  }

  /** Every character of `s` is whitespace; `s.trim()` is then empty. */
  predicate Blank(s: string) {
    forall i | 0 <= i < |s| :: IsSpace(s[i])
  }

  /** `s` begins with `p` (`s.startsWith(p)`). */
  predicate StartsWith(s: string, p: string) {
    |p| <= |s| && s[..|p|] == p
  }

  /** A string that starts with `p + q` starts with `p`. */
  lemma StartsWithShorter(s: string, p: string, q: string)
    requires StartsWith(s, p + q)
    ensures StartsWith(s, p)
  {
    assert s[..|p|] == (p + q)[..|p|];
  }

  /** `s` ends with `p` (`s.endsWith(p)`). */
  predicate EndsWith(s: string, p: string) {
    |p| <= |s| && s[|s| - |p|..] == p
  }

  /** `p` occurs in `s` starting at index `k`. */
  predicate OccursAt(s: string, p: string, k: int) {
    0 <= k && k + |p| <= |s| && s[k..k + |p|] == p
  }

  /** The first non-whitespace index at or after `lo` (or `|s|`). */
  function SkipSpaces(s: string, lo: nat): (a: nat)
    requires lo <= |s|
    ensures lo <= a <= |s|
    ensures forall i | lo <= i < a :: IsSpace(s[i])
    ensures a < |s| ==> !IsSpace(s[a])
    decreases |s| - lo
  {
    if lo < |s| && IsSpace(s[lo]) then SkipSpaces(s, lo + 1) else lo
  }

  /** The end of `s[lo..hi]` once its trailing whitespace is dropped. */
  function DropTrailingSpaces(s: string, lo: nat, hi: nat): (b: nat)
    requires lo <= hi <= |s|
    ensures lo <= b <= hi
    ensures forall i | b <= i < hi :: IsSpace(s[i])
    ensures b > lo ==> !IsSpace(s[b - 1])
    decreases hi
  {
    if hi > lo && IsSpace(s[hi - 1]) then DropTrailingSpaces(s, lo, hi - 1) else hi
  }

  /** `String.prototype.trim`: whitespace removed at both ends. */
  function Trim(s: string): (r: string)
    ensures |r| == 0 <==> Blank(s)
    ensures |r| > 0 ==> !IsSpace(r[0]) && !IsSpace(r[|r| - 1])
  {
    var a := SkipSpaces(s, 0);
    var b := DropTrailingSpaces(s, a, |s|);
    assert b == a ==> Blank(s);
    s[a..b]
  }

  /** Where `Trim(s)` starts inside `s`. */
  function TrimOffset(s: string): nat {
    SkipSpaces(s, 0)
  }

  /** `Trim(s)` is the slice of `s` between a whitespace prefix and a whitespace suffix. */
  lemma TrimIsSlice(s: string)
    ensures OccursAt(s, Trim(s), TrimOffset(s))
    ensures forall i | 0 <= i < TrimOffset(s) :: IsSpace(s[i])
    ensures forall i | TrimOffset(s) + |Trim(s)| <= i < |s| :: IsSpace(s[i])
  {
  }

  /** The first index at or after `from` where `p` occurs in `s`. */
  function IndexOfFrom(s: string, p: string, from: nat): (r: Option<nat>)
    ensures r.Some? ==> from <= r.value && OccursAt(s, p, r.value)
    ensures r.Some? ==> forall k | from <= k < r.value :: !OccursAt(s, p, k)
    ensures r.None? ==> forall k | from <= k :: !OccursAt(s, p, k)
    decreases |s| - from
  {
    if from + |p| > |s| then None
    else if s[from..from + |p|] == p then Some(from)
    else IndexOfFrom(s, p, from + 1)
  }

  /** `s.indexOf(p)`, with `None` for -1. An empty `p` is found at 0. */
  function IndexOf(s: string, p: string): Option<nat> {
    IndexOfFrom(s, p, 0)
  }

  /** `s.includes(p)`. */
  predicate Includes(s: string, p: string)
    ensures Includes(s, p) <==> exists k :: OccursAt(s, p, k)
  {
    IndexOf(s, p).Some?
  }

  /**
   * ECMAScript's GetSubstitution for a string pattern, which has no capture groups:
   * `$$` becomes `$`, `$&` the matched text, `` $` `` the text before the match and
   * `$'` the text after it; every other character (including `$1` and `$<`) is copied.
   */
  function Substitute(template: string, matched: string, before: string, after: string): (r: string)
    ensures '$' !in template ==> r == template
    ensures |template| > 0 && template[0] != '$' ==> |r| > 0 && r[0] == template[0]
    decreases |template|
  {
    if |template| == 0 then ""
    else if template[0] == '$' && |template| >= 2 && template[1] in "$&`'" then
      var expansion :=
        match template[1]
        case '$' => "$"
        case '&' => matched
        case '`' => before
        case _ => after;
      expansion + Substitute(template[2..], matched, before, after)
    else
      [template[0]] + Substitute(template[1..], matched, before, after)
  }

  /** `i` is the leftmost index at which `p` occurs in `s`. */
  predicate FirstOccurrence(s: string, p: string, i: int) {
    OccursAt(s, p, i) && forall k | 0 <= k < i :: !OccursAt(s, p, k)
  }

  lemma IndexOfIsFirst(s: string, p: string, i: int)
    requires FirstOccurrence(s, p, i)
    ensures IndexOf(s, p) == Some(i)
  {
    var r := IndexOf(s, p);
    assert r.Some?;
    assert !(r.value < i);
  }

  /**
   * `s.replace(pattern, template)` with a string `pattern`: only the leftmost occurrence
   * is replaced, by `template` with its `$` patterns expanded.
   */
  function ReplaceFirst(s: string, pattern: string, template: string): (r: string)
    ensures (forall k :: !OccursAt(s, pattern, k)) ==> r == s
    ensures forall i | FirstOccurrence(s, pattern, i) ::
              r == s[..i] + Substitute(template, pattern, s[..i], s[i + |pattern|..]) + s[i + |pattern|..]
    ensures |s| > 0 && |template| > 0 && template[0] != '$' ==> |r| > 0
  {
    match IndexOf(s, pattern)
    case None => s
    case Some(i) =>
      assert FirstOccurrence(s, pattern, i);
      assert forall j | FirstOccurrence(s, pattern, j) :: j == i by {
        forall j | FirstOccurrence(s, pattern, j) ensures j == i {
          IndexOfIsFirst(s, pattern, j);
        }
      }
      s[..i] + Substitute(template, pattern, s[..i], s[i + |pattern|..]) + s[i + |pattern|..]
  }

  /** The literal replacement case: with no `$` in the template, the first occurrence of
      `pattern` is cut out and `template` put in its place. */
  lemma ReplaceFirstLiteral(s: string, pattern: string, template: string, i: nat)
    requires '$' !in template
    requires FirstOccurrence(s, pattern, i)
    ensures ReplaceFirst(s, pattern, template) == s[..i] + template + s[i + |pattern|..]
    ensures Includes(ReplaceFirst(s, pattern, template), template)
  {
    ReplaceFirstSplice(s, pattern, template, i);
    var r := ReplaceFirst(s, pattern, template);
    assert r[i..i + |template|] == template;
    assert OccursAt(r, template, i);
  }

  /** The splice alone, for callers that need nothing about occurrences in the result. */
  lemma ReplaceFirstSplice(s: string, pattern: string, template: string, i: nat)
    requires '$' !in template
    requires FirstOccurrence(s, pattern, i)
    ensures ReplaceFirst(s, pattern, template) == s[..i] + template + s[i + |pattern|..]
  {
  }

  /** `s.replace(/\n/g, "\n\n")`: every line feed is doubled. */
  function DoubleNewlines(s: string): (r: string)
    ensures |r| == |s| + CountLF(s)
    ensures HalveNewlines(r) == s
  {
    if |s| == 0 then ""
    else if s[0] == '\n' then "\n\n" + DoubleNewlines(s[1..])
    else [s[0]] + DoubleNewlines(s[1..])
  }

  /** The number of line feeds in `s`. */
  function CountLF(s: string): nat {
    if |s| == 0 then 0 else (if s[0] == '\n' then 1 else 0) + CountLF(s[1..])
  }

  /** The inverse reading of a doubled text: each pair of line feeds becomes one. */
  function HalveNewlines(s: string): string {
    if |s| == 0 then ""
    else if |s| >= 2 && s[0] == '\n' && s[1] == '\n' then "\n" + HalveNewlines(s[2..])
    else [s[0]] + HalveNewlines(s[1..])
  }

  predicate IsDigit(c: char) {
    '0' <= c <= '9'
  }

  predicate AllDigits(s: string) {
    forall i | 0 <= i < |s| :: IsDigit(s[i])
  }

  function DigitChar(d: nat): (c: char)
    requires d < 10
    ensures IsDigit(c) && c as int - '0' as int == d
  {
    ('0' as int + d) as char
  }

  /** The value of a string of decimal digits. */
  function DigitsValue(s: string): nat
    requires AllDigits(s)
  {
    if |s| == 0 then 0 else DigitsValue(s[..|s| - 1]) * 10 + (s[|s| - 1] as int - '0' as int)
  }

  /** How a template literal renders a non-negative integer: shortest decimal digits. */
  function NatDecimal(n: nat): (r: string)
    ensures |r| > 0 && AllDigits(r)
    ensures r[0] == '0' <==> n == 0
    ensures DigitsValue(r) == n
  {
    if n < 10 then [DigitChar(n)]
    else
      var high := NatDecimal(n / 10);
      var r := high + [DigitChar(n % 10)];
      assert r[..|r| - 1] == high;
      r
  }

  /** How a template literal renders an integer, such as an HTTP status. */
  function Decimal(n: int): (r: string)
    ensures |r| > 0
    ensures n >= 0 ==> AllDigits(r) && DigitsValue(r) == n
    ensures n < 0 ==> r[0] == '-' && AllDigits(r[1..]) && DigitsValue(r[1..]) == -n
  {
    if n < 0 then
      var r := "-" + NatDecimal(-n);
      assert r[1..] == NatDecimal(-n);
      r
    else NatDecimal(n)
  }

  /** Distinct integers render differently, so a message carrying a status identifies it. */
  lemma DecimalInjective(a: int, b: int)
    requires Decimal(a) == Decimal(b)
    ensures a == b
  {
  }
}

=== FILE: markdown.dfy ===
/**
 * Rendering of a post as a markdown note (src/markdown.ts): a YAML front matter, the
 * post body with its short links replaced by markdown links, and an optional section
 * for an attached article. The two dates are taken as already formatted strings.
 */
module Markdown {
  import opened Maybe
  import opened JsString
  import opened XTypes

  /** `post.note_tweet?.text ?? post.text`: a present note tweet wins even when its
      text is empty. */
  function EffectiveContent(post: XPost): string {
    match post.noteTweet
    case Some(note) => note.text
    case None => post.text
  }

  const TcoPrefix := "https://t.co/"

  /** `/^https:\/\/t\.co\/\S+$/`: the whole string is one short link. Such a string
      has no whitespace at either end, so trimming leaves it as it is. */
  predicate IsBareTcoLink(s: string)
    ensures IsBareTcoLink(s) ==> Trim(s) == s
  {
    BareLinkTrimmed(s);
    && StartsWith(s, TcoPrefix)
    && |s| > |TcoPrefix|
    && forall i | |TcoPrefix| <= i < |s| :: !IsSpace(s[i])
  }

  /** A string that starts with the short-link prefix and ends in a non-space
      character is its own trim. */
  lemma BareLinkTrimmed(s: string)
    ensures StartsWith(s, TcoPrefix) && |s| > |TcoPrefix| && !IsSpace(s[|s| - 1]) ==> Trim(s) == s
  {
    if StartsWith(s, TcoPrefix) && |s| > |TcoPrefix| && !IsSpace(s[|s| - 1]) {
      assert s[0] == TcoPrefix[0];
      assert SkipSpaces(s, 0) == 0;
      assert DropTrailingSpaces(s, 0, |s|) == |s|;
    }
  }

  // ---------------------------------------------------------------------------
  // Links in the post body (`resolveUrls`)
  // ---------------------------------------------------------------------------

  /** `u.expanded_url ?? u.url`. */
  function Expanded(u: XUrl): string {
    u.expandedUrl.OrElse(u.url)
  }

  /** `u.display_url ?? expanded`. */
  function Display(u: XUrl): string {
    u.displayUrl.OrElse(Expanded(u))
  }

  /** `[text](target)`. */
  function MarkdownLink(text: string, target: string): (r: string)
    ensures |r| == |text| + |target| + 4 && r[0] == '['
    ensures OccursAt(r, text, 1) && OccursAt(r, target, |text| + 3)
    ensures r[|text| + 1..|text| + 3] == "](" && r[|r| - 1] == ')'
    ensures '$' !in text && '$' !in target ==> '$' !in r
  {
    var r := "[" + text + "](" + target + ")";
    assert r[1..1 + |text|] == text;
    assert r[|text| + 3..|text| + 3 + |target|] == target;
    r
  }

  /** A link is left alone when it points back at the clipped post itself, or at an
      article (`/x\.com\/i\/article\//`). */
  predicate SkipsLink(u: XUrl, postId: string) {
    || (Includes(Expanded(u), "/status/") && Includes(Expanded(u), postId))
    || Includes(Expanded(u), "x.com/i/article/")
  }

  /** One iteration of the link loop: the first occurrence of the short form is
      replaced by `[display](expanded)`, unless the link is skipped. */
  function ResolveUrl(text: string, u: XUrl, postId: string): string {
    if SkipsLink(u, postId) then text
    else ReplaceFirst(text, u.url, MarkdownLink(Display(u), Expanded(u)))
  }

  /** The link loop over `urls`, in order. */
  function ResolveUrlList(text: string, urls: seq<XUrl>, postId: string): (r: string)
    ensures |text| > 0 ==> |r| > 0
    decreases |urls|
  {
    if |urls| == 0 then text
    else ResolveUrlList(ResolveUrl(text, urls[0], postId), urls[1..], postId)
  }

  /** The links of a post: the note tweet's first, then the top-level ones. */
  function PostUrls(post: XPost): seq<XUrl> {
    (if post.noteTweet.Some? then UrlsOf(post.noteTweet.value.entities) else []) + UrlsOf(post.entities)
  }

  /** `resolveUrls(text, post)`: a non-empty text stays non-empty, and a text in which
      none of the post's short forms occurs comes back unchanged. */
  function ResolveUrls(text: string, post: XPost): (r: string)
    ensures |text| > 0 ==> |r| > 0
    ensures (forall k | 0 <= k < |PostUrls(post)| :: !Includes(text, PostUrls(post)[k].url)) ==> r == text
  {
    AbsentLinksKeepText(text, PostUrls(post), post.id);
    ResolveUrlList(text, PostUrls(post), post.id)
  }

  /** Links whose short forms do not occur in the text never change it. */
  lemma {:induction false} AbsentLinksKeepText(text: string, urls: seq<XUrl>, postId: string)
    ensures (forall k | 0 <= k < |urls| :: !Includes(text, urls[k].url)) ==> ResolveUrlList(text, urls, postId) == text
    decreases |urls|
  {
    if |urls| > 0 && forall k | 0 <= k < |urls| :: !Includes(text, urls[k].url) {
      ResolveUrlAbsent(text, urls[0], postId);
      assert forall k | 0 <= k < |urls[1..]| :: urls[1..][k] == urls[k + 1];
      AbsentLinksKeepText(text, urls[1..], postId);
    }
  }

  /** Running the loop over a concatenated list is running it over each part in turn. */
  lemma {:induction false} ResolveUrlListAppend(text: string, a: seq<XUrl>, b: seq<XUrl>, postId: string)
    ensures ResolveUrlList(text, a + b, postId) == ResolveUrlList(ResolveUrlList(text, a, postId), b, postId)
    decreases |a|
  {
    if |a| == 0 {
      assert a + b == b;
    } else {
      assert (a + b)[0] == a[0];
      assert (a + b)[1..] == a[1..] + b;
      ResolveUrlListAppend(ResolveUrl(text, a[0], postId), a[1..], b, postId);
    }
  }

  /** The note tweet's links are all applied before any top-level link. */
  lemma NoteLinksFirst(text: string, post: XPost)
    requires post.noteTweet.Some?
    ensures ResolveUrls(text, post)
         == ResolveUrlList(ResolveUrlList(text, UrlsOf(post.noteTweet.value.entities), post.id),
                           UrlsOf(post.entities), post.id)
  {
    ResolveUrlListAppend(text, UrlsOf(post.noteTweet.value.entities), UrlsOf(post.entities), post.id);
  }

  /** Links that point back at the post or at an article never change the text. */
  lemma {:induction false} SkippedLinksKeepText(text: string, urls: seq<XUrl>, postId: string)
    requires forall k | 0 <= k < |urls| :: SkipsLink(urls[k], postId)
    ensures ResolveUrlList(text, urls, postId) == text
    decreases |urls|
  {
    if |urls| > 0 {
      assert SkipsLink(urls[0], postId);
      SkippedLinksKeepText(text, urls[1..], postId);
    }
  }

  /** A link that is not skipped, without `$` in its expansion, turns the first
      occurrence of its short form into `[display](expanded)` and nothing else. */
  lemma ResolveUrlReplacesFirst(text: string, u: XUrl, postId: string, i: nat)
    requires !SkipsLink(u, postId)
    requires '$' !in Display(u) && '$' !in Expanded(u)
    requires FirstOccurrence(text, u.url, i)
    ensures ResolveUrl(text, u, postId)
         == text[..i] + MarkdownLink(Display(u), Expanded(u)) + text[i + |u.url|..]
  {
    ReplaceFirstSplice(text, u.url, MarkdownLink(Display(u), Expanded(u)), i);
  }

  /** A short form that does not occur in the text leaves it unchanged. */
  lemma ResolveUrlAbsent(text: string, u: XUrl, postId: string)
    requires !Includes(text, u.url)
    ensures ResolveUrl(text, u, postId) == text
  {
  }

  // ---------------------------------------------------------------------------
  // The article section (`formatArticle`)
  // ---------------------------------------------------------------------------

  /** `article.plain_text ?? article.preview_text`. */
  function ArticleSource(a: XArticle): Option<string> {
    if a.plainText.Some? then a.plainText else a.previewText
  }

  /** An article contributes a section exactly when its source text is non-empty. */
  predicate HasArticleText(a: XArticle) {
    ArticleSource(a).Some? && ArticleSource(a).value != ""
  }

  /** `[@name](https://x.com/@name)`. */
  function MentionLink(username: string): (r: string)
    ensures |r| > 0 && r[0] == '['
    ensures '$' !in username ==> '$' !in r
  {
    MarkdownLink("@" + username, "https://x.com/@" + username)
  }

  /** One iteration of the mention loop: the first `@name` becomes a profile link. */
  function ResolveMention(text: string, m: XMention): string {
    ReplaceFirst(text, "@" + m.username, MentionLink(m.username))
  }

  /** The mention loop over `ms`, in order. */
  function ResolveMentionList(text: string, ms: seq<XMention>): (r: string)
    ensures |text| > 0 ==> |r| > 0
    decreases |ms|
  {
    if |ms| == 0 then text else ResolveMentionList(ResolveMention(text, ms[0]), ms[1..])
  }

  /** `url.replace(/^https?:\/\//, "")`: one leading `http://` or `https://` is removed. */
  function StripScheme(url: string): (r: string)
    ensures r == url || url == "https://" + r || url == "http://" + r
    ensures StartsWith(url, "https://") ==> url == "https://" + r
    ensures StartsWith(url, "http://") ==> url == "http://" + r
    ensures !StartsWith(url, "https://") && !StartsWith(url, "http://") ==> r == url
    ensures StartsWith(url, "https://") ==> r == url[8..]
    ensures StartsWith(url, "http://") ==> r == url[7..]
  {
    if StartsWith(url, "https://") then
      assert url == url[..8] + url[8..];
      assert !StartsWith(url, "http://") by {
        assert url[4] == url[..8][4] == 's';
      }
      url[8..]
    else if StartsWith(url, "http://") then
      assert url == url[..7] + url[7..];
      url[7..]
    else url
  }

  /** The link an article URL becomes: a URL with an `http://` or `https://` scheme is
      shown without it and targets itself; a URL that starts with "http" but has
      neither scheme is shown and targeted as is; any other URL is shown as is and
      targeted over https. The URL itself always appears in the link. */
  function ArticleUrlLink(url: string): (r: string)
    ensures StartsWith(url, "https://") ==> r == MarkdownLink(url[8..], url)
    ensures StartsWith(url, "http://") ==> r == MarkdownLink(url[7..], url)
    ensures StartsWith(url, "http") && !StartsWith(url, "https://") && !StartsWith(url, "http://") ==>
              r == MarkdownLink(url, url)
    ensures !StartsWith(url, "http") ==> r == MarkdownLink(url, "https://" + url)
    ensures Includes(r, url)
    ensures '$' !in url ==> '$' !in r
  {
    assert "https://" == "http" + "s://" && "http://" == "http" + "://";
    if StartsWith(url, "https://") then
      StartsWithShorter(url, "http", "s://");
      assert '$' !in url ==> '$' !in url[8..];
      MarkdownLink(StripScheme(url), url)
    else if StartsWith(url, "http://") then
      StartsWithShorter(url, "http", "://");
      assert '$' !in url ==> '$' !in url[7..];
      MarkdownLink(StripScheme(url), url)
    else if StartsWith(url, "http") then MarkdownLink(StripScheme(url), url)
    else
      assert '$' !in url ==> '$' !in "https://" + url;
      MarkdownLink(url, "https://" + url)
  }

  /** One iteration of the article's link loop. */
  function ResolveArticleUrl(text: string, u: XUrl): string {
    ReplaceFirst(text, u.url, ArticleUrlLink(u.url))
  }

  /** The article's link loop over `urls`, in order. */
  function ResolveArticleUrlList(text: string, urls: seq<XUrl>): (r: string)
    ensures |text| > 0 ==> |r| > 0
    decreases |urls|
  {
    if |urls| == 0 then text else ResolveArticleUrlList(ResolveArticleUrl(text, urls[0]), urls[1..])
  }

  /** Running the mention loop over a concatenated list is running it over each part in turn. */
  lemma {:induction false} ResolveMentionListAppend(text: string, a: seq<XMention>, b: seq<XMention>)
    ensures ResolveMentionList(text, a + b) == ResolveMentionList(ResolveMentionList(text, a), b)
    decreases |a|
  {
    if |a| == 0 {
      assert a + b == b;
    } else {
      assert (a + b)[0] == a[0];
      assert (a + b)[1..] == a[1..] + b;
      ResolveMentionListAppend(ResolveMention(text, a[0]), a[1..], b);
    }
  }

  /** Running the article's link loop over a concatenated list is running it over each
      part in turn. */
  lemma {:induction false} ResolveArticleUrlListAppend(text: string, a: seq<XUrl>, b: seq<XUrl>)
    ensures ResolveArticleUrlList(text, a + b) == ResolveArticleUrlList(ResolveArticleUrlList(text, a), b)
    decreases |a|
  {
    if |a| == 0 {
      assert a + b == b;
    } else {
      assert (a + b)[0] == a[0];
      assert (a + b)[1..] == a[1..] + b;
      ResolveArticleUrlListAppend(ResolveArticleUrl(text, a[0]), a[1..], b);
    }
  }

  /** An article link without `$` in its URL replaces the first occurrence of the URL
      by its markdown link and nothing else. */
  lemma ResolveArticleUrlReplacesFirst(text: string, u: XUrl, i: nat)
    requires '$' !in u.url
    requires FirstOccurrence(text, u.url, i)
    ensures ResolveArticleUrl(text, u) == text[..i] + ArticleUrlLink(u.url) + text[i + |u.url|..]
  {
    ReplaceFirstSplice(text, u.url, ArticleUrlLink(u.url), i);
  }

  /**
   * `formatArticle`: the source text with every line feed doubled, then the mentions,
   * then the links resolved. There is no text when there is no article or its source
   * text is absent or empty; otherwise the text is never empty.
   */
  function FormatArticle(article: Option<XArticle>): (r: Option<string>)
    ensures r.Some? <==> article.Some? && HasArticleText(article.value)
    ensures r.Some? ==> |r.value| > 0
    ensures r.Some? ==>
              r.value == ResolveArticleUrlList(
                           ResolveMentionList(DoubleNewlines(ArticleSource(article.value).value),
                                              MentionsOf(article.value.entities)),
                           UrlsOf(article.value.entities))
  {
    match article
    case None => None
    case Some(a) =>
      match ArticleSource(a)
      case None => None
      case Some(text) =>
        if text == "" then None
        else
          var doubled := DoubleNewlines(text);
          var withMentions := ResolveMentionList(doubled, MentionsOf(a.entities));
          Some(ResolveArticleUrlList(withMentions, UrlsOf(a.entities)))
  }

  /** Without annotations the article text is its source with doubled line feeds,
      from which the source is recovered by halving them again. */
  lemma PlainArticleRoundTrip(a: XArticle)
    requires HasArticleText(a)
    requires MentionsOf(a.entities) == [] && UrlsOf(a.entities) == []
    ensures FormatArticle(Some(a)) == Some(DoubleNewlines(ArticleSource(a).value))
    ensures HalveNewlines(FormatArticle(Some(a)).value) == ArticleSource(a).value
  {
  }

  /** A mention without `$` in its name replaces the first `@name` by its profile link. */
  lemma ResolveMentionReplacesFirst(text: string, m: XMention, i: nat)
    requires '$' !in m.username
    requires FirstOccurrence(text, "@" + m.username, i)
    ensures ResolveMention(text, m) == text[..i] + MentionLink(m.username) + text[i + 1 + |m.username|..]
  {
    ReplaceFirstSplice(text, "@" + m.username, MentionLink(m.username), i);
  }

  // ---------------------------------------------------------------------------
  // The note (`generateMarkdown`)
  // ---------------------------------------------------------------------------

  /** The front matter up to the author's name. */
  const FrontMatterHead := "---\ncategories:\n  - \"[[Clippings]]\"\nauthor:\n  - \"[["

  /** What follows the author's name, up to the creation date. */
  const CreatedKey := "]]\"\ncreated: "

  /** What follows the creation date, up to the publication date. */
  const PublishedKey := "\npublished: "

  /** What closes the front matter. */
  const FrontMatterEnd := "\n---\n"

  /** The YAML front matter, with the author linked as a wiki page: the name and both
      dates can be read back at fixed offsets, and the block is closed by `---`. */
  function FrontMatter(displayName: string, today: string, published: string): (r: string)
    ensures StartsWith(r, FrontMatterHead) && EndsWith(r, FrontMatterEnd)
    ensures OccursAt(r, displayName, |FrontMatterHead|)
    ensures OccursAt(r, today, |FrontMatterHead| + |displayName| + |CreatedKey|)
    ensures OccursAt(r, published, |FrontMatterHead| + |displayName| + |CreatedKey| + |today| + |PublishedKey|)
  {
    var a := FrontMatterHead + displayName + CreatedKey;
    var b := a + today + PublishedKey;
    var r := b + published + FrontMatterEnd;
    assert r[..|FrontMatterHead|] == FrontMatterHead;
    assert r[|FrontMatterHead|..|FrontMatterHead| + |displayName|] == displayName;
    assert r[|a|..|a| + |today|] == today;
    assert r[|b|..|b| + |published|] == published;
    assert r[|r| - |FrontMatterEnd|..] == FrontMatterEnd;
    r
  }

  /** The heading and text of the article section. */
  function ArticleSection(text: string): string {
    "\n### X Article\n\n" + text + "\n"
  }

  /** The body text before its links are resolved: emptied when an article is attached
      and the body is nothing but its short link. */
  function BodyText(post: XPost): (r: string)
    ensures r == "" || r == EffectiveContent(post)
    ensures post.article.None? ==> r == EffectiveContent(post)
    ensures r != EffectiveContent(post) <==> post.article.Some? && IsBareTcoLink(Trim(EffectiveContent(post)))
  {
    if post.article.Some? && IsBareTcoLink(Trim(EffectiveContent(post))) then ""
    else EffectiveContent(post)
  }

  /** The resolved body: no text stays no text. */
  function ResolvedBody(content: string, post: XPost): string {
    if content == "" then "" else ResolveUrls(content, post)
  }

  /**
   * `generateMarkdown`, given the formatted creation date and today's date: the front
   * matter, the body with resolved links, and the article section when the article has
   * text.
   */
  function GenerateMarkdown(post: XPost, today: string, published: string): (md: string)
    ensures StartsWith(md, FrontMatter(post.author.name, today, published))
    ensures post.article.None? ==>
              md == FrontMatter(post.author.name, today, published)
                    + ResolvedBody(EffectiveContent(post), post)
    ensures post.article.Some? && IsBareTcoLink(Trim(EffectiveContent(post))) ==>
              md == FrontMatter(post.author.name, today, published)
                    + (if HasArticleText(post.article.value)
                       then ArticleSection(FormatArticle(post.article).value) else "")
    ensures post.article.Some? && !IsBareTcoLink(Trim(EffectiveContent(post))) ==>
              md == FrontMatter(post.author.name, today, published)
                    + ResolvedBody(EffectiveContent(post), post)
                    + (if HasArticleText(post.article.value)
                       then ArticleSection(FormatArticle(post.article).value) else "")
    ensures post.article.Some? && HasArticleText(post.article.value) ==>
              EndsWith(md, ArticleSection(FormatArticle(post.article).value))
  {
    var front := FrontMatter(post.author.name, today, published);
    var content := BodyText(post);
    var md := front + ResolvedBody(content, post);
    match FormatArticle(post.article)
    case Some(articleText) => md + ArticleSection(articleText)
    case None => md
  }

  /** A present note tweet with empty text hides the post's own text entirely. */
  lemma EmptyNoteHidesText(post: XPost, today: string, published: string)
    requires post.noteTweet.Some? && post.noteTweet.value.text == ""
    requires post.article.None?
    ensures GenerateMarkdown(post, today, published) == FrontMatter(post.author.name, today, published)
  {
  }
}

=== FILE: maybe.dfy ===
/** Optional values (`undefined` in the JavaScript records) and failure-carrying results. */
module Maybe {

  /** An optional field: `None` stands for a missing or `undefined` value. */
  datatype Option<+T> = None | Some(value: T) {

    /** The `??` operator: the wrapped value, or `fallback` when absent. */
    function OrElse(fallback: T): T {
      match this
      case Some(v) => v
      case None => fallback
    }
  }

  /** The outcome of an operation that fails where the plugin throws. */
  datatype Result<+T, +E> = Success(value: T) | Failure(error: E)
}

=== FILE: postid.dfy ===
/**
 * Extraction of the numeric post id from a post URL (`extractXPostId`, src/utils.ts).
 * The URL is taken already parsed: `new URL` is the WHATWG URL parser, which also
 * lower-cases the host; here its result is the hostname and pathname, or `None` when
 * the string is not a URL.
 */
module PostId {
  import opened Maybe
  import opened JsString

  /** The two parts of a parsed URL the extraction reads. */
  datatype ParsedUrl = ParsedUrl(hostname: string, pathname: string)

  /** The three ways extraction throws. */
  datatype IdError = InvalidUrl | WrongDomain | IdNotFound

  /** The hosts whose links are accepted. */
  const AcceptedHostNames: set<string> := {"x.com", "twitter.com", "www.x.com", "www.twitter.com"}

  const StatusSegment := "/status/"

  /** `hostname.replace(/^www\./, "")` is `x.com` or `twitter.com`: at most one leading
      `www.` is stripped, so exactly four host names pass. */
  predicate AcceptedHost(host: string)
    ensures AcceptedHost(host) <==> host in AcceptedHostNames
  {
    var h := if StartsWith(host, "www.") then host[4..] else host;
    assert (h == "x.com" || h == "twitter.com") <==> host in AcceptedHostNames by {
      if StartsWith(host, "www.") {
        assert host == "www." + h;
        assert host[..4] == "www.";
        assert host != "x.com" && host != "twitter.com" by {
          assert "x.com"[..4] == "x.co" && "twitter.com"[..4] == "twit";
        }
        assert host == "www.x.com" <==> h == "x.com" by {
          if host == "www.x.com" { assert h == host[4..]; }
        }
        assert host == "www.twitter.com" <==> h == "twitter.com" by {
          if host == "www.twitter.com" { assert h == host[4..]; }
        }
      } else {
        assert "www.x.com"[..4] == "www." && "www.twitter.com"[..4] == "www.";
      }
    }
    h == "x.com" || h == "twitter.com"
  }

  /** The first `/` at or after index `k` of `path`, or `|path|` when there is none. */
  function NextSlash(path: string, k: nat): (j: nat)
    requires k <= |path|
    ensures k <= j <= |path|
    ensures forall m | k <= m < j :: path[m] != '/'
    ensures j < |path| ==> path[j] == '/'
    decreases |path| - k
  {
    if k < |path| && path[k] != '/' then NextSlash(path, k + 1) else k
  }

  /** The end of the maximal run of ASCII digits (`\d+`, greedy) starting at `k`. */
  function DigitRunEnd(path: string, k: nat): (e: nat)
    requires k <= |path|
    ensures k <= e <= |path|
    ensures forall m | k <= m < e :: IsDigit(path[m])
    ensures e < |path| ==> !IsDigit(path[e])
    decreases |path| - k
  {
    if k < |path| && IsDigit(path[k]) then DigitRunEnd(path, k + 1) else k
  }

  /** The pattern `\/[^/]+\/status\/\d` matches at index `i`: a `/`, a non-empty
      segment without `/`, then `/status/` and a digit. */
  ghost predicate PatternAt(path: string, i: int) {
    && 0 <= i < |path|
    && path[i] == '/'
    && exists j | i + 1 < j < |path| ::
         && (forall m | i < m < j :: path[m] != '/')
         && OccursAt(path, StatusSegment, j)
         && j + 8 < |path|
         && IsDigit(path[j + 8])
  }

  /** `i` is where the unanchored search for the pattern first succeeds. */
  ghost predicate LeftmostPatternAt(path: string, i: int) {
    PatternAt(path, i) && forall k | 0 <= k < i :: !PatternAt(path, k)
  }

  /** The capture group `(\d+)` of `\/[^/]+\/status\/(\d+)` tried at index `i`. Because
      `[^/]+` cannot cross a `/`, the segment always ends at the next `/`. */
  function MatchAt(path: string, i: nat): (r: Option<string>)
    ensures r.Some? <==> PatternAt(path, i)
    ensures r.Some? ==> |r.value| > 0 && AllDigits(r.value)
    ensures r.Some? ==>
              var d := NextSlash(path, i + 1) + |StatusSegment|;
              && OccursAt(path, StatusSegment, d - |StatusSegment|)
              && OccursAt(path, r.value, d)
              && (d + |r.value| == |path| || !IsDigit(path[d + |r.value|]))
  {
    if i < |path| && path[i] == '/' then
      var j := NextSlash(path, i + 1);
      if i + 1 < j && OccursAt(path, StatusSegment, j) && j + 8 < |path| && IsDigit(path[j + 8]) then
        CaptureAt(path, i, j);
        Some(path[j + 8..DigitRunEnd(path, j + 8)])
      else
        NoPatternAt(path, i);
        None
    else
      None
  }

  /** When the segment up to the next `/` is followed by `/status/` and a digit, the
      pattern matches and the digit run there is a non-empty capture. */
  lemma CaptureAt(path: string, i: nat, j: nat)
    requires i < |path| && path[i] == '/' && i + 1 <= |path| && j == NextSlash(path, i + 1)
    requires i + 1 < j && OccursAt(path, StatusSegment, j) && j + 8 < |path| && IsDigit(path[j + 8])
    ensures PatternAt(path, i)
    ensures var id := path[j + 8..DigitRunEnd(path, j + 8)]; |id| > 0 && AllDigits(id)
  {
    var id := path[j + 8..DigitRunEnd(path, j + 8)];
    forall m | 0 <= m < |id| ensures IsDigit(id[m]) {
      assert id[m] == path[j + 8 + m];
    }
  }

  /** When the segment up to the next `/` is not followed by `/status/` and a digit,
      the pattern does not match at `i`. */
  lemma NoPatternAt(path: string, i: nat)
    requires i < |path|
    ensures var j := NextSlash(path, i + 1);
            !(i + 1 < j && OccursAt(path, StatusSegment, j) && j + 8 < |path| && IsDigit(path[j + 8]))
            ==> !PatternAt(path, i)
  {
    if PatternAt(path, i) {
      PatternSegmentEndsAtNextSlash(path, i);
    }
  }

  /** Whichever segment witnesses a match, it is the one ending at the next `/`. */
  lemma PatternSegmentEndsAtNextSlash(path: string, i: int)
    requires PatternAt(path, i)
    ensures var j := NextSlash(path, i + 1);
            i + 1 < j && OccursAt(path, StatusSegment, j) && j + 8 < |path| && IsDigit(path[j + 8])
  {
    var j' :| i + 1 < j' < |path| && (forall m | i < m < j' :: path[m] != '/')
              && OccursAt(path, StatusSegment, j') && j' + 8 < |path| && IsDigit(path[j' + 8]);
    assert path[j'] == path[j'..j' + 8][0];
  }

  /** The index of the leftmost match at or after `from`. */
  function FirstMatchFrom(path: string, from: nat): (r: Option<nat>)
    ensures r.Some? ==> from <= r.value && PatternAt(path, r.value)
    ensures r.Some? ==> forall k | from <= k < r.value :: !PatternAt(path, k)
    ensures r.None? ==> forall k | from <= k :: !PatternAt(path, k)
    decreases |path| - from
  {
    if from >= |path| then None
    else if MatchAt(path, from).Some? then Some(from)
    else FirstMatchFrom(path, from + 1)
  }

  /**
   * `extractXPostId`: the host check comes first, then the unanchored search of the
   * pathname; on success the id is the digit run captured at the leftmost match.
   */
  function ExtractPostId(url: Option<ParsedUrl>): (r: Result<string, IdError>)
    ensures r == Failure(InvalidUrl) <==> url.None?
    ensures r == Failure(WrongDomain) <==> url.Some? && !AcceptedHost(url.value.hostname)
    ensures r == Failure(IdNotFound) <==>
              url.Some? && AcceptedHost(url.value.hostname) && forall i :: !PatternAt(url.value.pathname, i)
    ensures r.Success? ==> |r.value| > 0 && AllDigits(r.value)
    ensures r.Success? ==>
              exists i :: LeftmostPatternAt(url.value.pathname, i) && MatchAt(url.value.pathname, i) == Some(r.value)
  {
    match url
    case None => Failure(InvalidUrl)
    case Some(parsed) =>
      if !AcceptedHost(parsed.hostname) then Failure(WrongDomain)
      else
        match FirstMatchFrom(parsed.pathname, 0)
        case None => Failure(IdNotFound)
        case Some(i) =>
          assert LeftmostPatternAt(parsed.pathname, i);
          Success(MatchAt(parsed.pathname, i).value)
  }

  /** Two maximal digit runs starting at the same index are the same run. */
  lemma MaximalDigitRunUnique(path: string, k: nat, a: string, b: string)
    requires OccursAt(path, a, k) && AllDigits(a) && (k + |a| == |path| || !IsDigit(path[k + |a|]))
    requires OccursAt(path, b, k) && AllDigits(b) && (k + |b| == |path| || !IsDigit(path[k + |b|]))
    ensures a == b
  {
    assert forall m | 0 <= m < |a| :: path[k + m] == a[m];
    assert forall m | 0 <= m < |b| :: path[k + m] == b[m];
    assert a == path[k..k + |a|];
  }

  /** The path of a status link. */
  function StatusPath(segment: string, id: string, rest: string): string {
    "/" + segment + StatusSegment + id + rest
  }

  /** In a status path the pattern matches at the start, its segment ends right after
      `segment`, and the digits are followed by `rest`. */
  lemma StatusPathShape(segment: string, id: string, rest: string)
    requires |segment| > 0 && '/' !in segment
    requires |id| > 0 && AllDigits(id)
    ensures var path := StatusPath(segment, id, rest);
            var d := 1 + |segment| + |StatusSegment|;
            && PatternAt(path, 0)
            && NextSlash(path, 1) == 1 + |segment|
            && OccursAt(path, id, d)
            && (|rest| > 0 ==> path[d + |id|] == rest[0])
            && |path| == d + |id| + |rest|
  {
    var path := StatusPath(segment, id, rest);
    var j := 1 + |segment|;
    var d := j + |StatusSegment|;
    assert forall m | 0 < m < j :: path[m] == segment[m - 1];
    assert path[j..j + |StatusSegment|] == StatusSegment;
    assert path[d..d + |id|] == id;
    assert path[d] == id[0];
    assert forall m | 0 < m < j :: path[m] != '/' by {
      forall m | 0 < m < j ensures path[m] != '/' {
        assert path[m] == segment[m - 1];
      }
    }
    assert OccursAt(path, StatusSegment, j) && j + 8 < |path| && IsDigit(path[j + 8]);
    assert path[j] == '/';
    assert NextSlash(path, 1) == j;
    if |rest| > 0 {
      assert path[d + |id|] == rest[0];
    }
  }

  /**
   * The id written into a status link is the id extracted from it: a path
   * `/<segment>/status/<digits><rest>` on an accepted host, where the segment has no
   * `/` and the rest does not continue the digits, yields exactly those digits.
   */
  lemma StatusPathRoundTrip(host: string, segment: string, id: string, rest: string)
    requires host in AcceptedHostNames
    requires |segment| > 0 && '/' !in segment
    requires |id| > 0 && AllDigits(id)
    requires |rest| == 0 || !IsDigit(rest[0])
    ensures ExtractPostId(Some(ParsedUrl(host, StatusPath(segment, id, rest)))) == Success(id)
  {
    var path := StatusPath(segment, id, rest);
    StatusPathShape(segment, id, rest);
    var m := MatchAt(path, 0);
    var d := 1 + |segment| + |StatusSegment|;
    assert m.Some?;
    MaximalDigitRunUnique(path, d, m.value, id);
    assert FirstMatchFrom(path, 0) == Some(0);
  }

  /** Only one leading `www.` is stripped, and no other subdomain is accepted, so
      such links fail with `WrongDomain` whatever their path. */
  lemma SubdomainsRejected(path: string)
    ensures ExtractPostId(Some(ParsedUrl("www.www.x.com", path))) == Failure(WrongDomain)
    ensures ExtractPostId(Some(ParsedUrl("mobile.x.com", path))) == Failure(WrongDomain)
  {
    assert !AcceptedHost("www.www.x.com");
    assert !AcceptedHost("mobile.x.com");
  }
}

=== FILE: xtypes.dfy ===
/**
 * The records the X API v2 returns for a post, as declared in src/fetch-x-post.ts.
 * Optional JSON members are `Option`s; numeric offsets are kept but never used,
 * because links and mentions are resolved by literal substring match.
 */
module XTypes {
  import opened Maybe

  /** A link annotation (`XUrl`): the short `t.co` form as it appears in the text,
      its expanded target and its human-readable display form. */
  datatype XUrl = XUrl(
    start: int,
    end: int,
    url: string,
    expandedUrl: Option<string>,
    displayUrl: Option<string>,
    title: Option<string>,
    description: Option<string>,
    unwoundUrl: Option<string>)

  /** A mention annotation (`XMention`). */
  datatype XMention = XMention(start: int, end: int, username: string)

  /** The annotations of one text (`XEntity`); a missing list reads as empty. */
  datatype XEntity = XEntity(urls: Option<seq<XUrl>>, mentions: Option<seq<XMention>>) {
    function UrlList(): seq<XUrl> {
      urls.OrElse([])
    }

    function MentionList(): seq<XMention> {
      mentions.OrElse([])
    }
  }

  /** The long-form body of a post (`XNoteTweet`). */
  datatype XNoteTweet = XNoteTweet(text: string, entities: Option<XEntity>)

  /** A long-form article attached to a post (`XArticle`). */
  datatype XArticle = XArticle(
    title: string,
    plainText: Option<string>,
    previewText: Option<string>,
    entities: Option<XEntity>)

  /** The author record of the `includes.users` expansion (`XUser`). */
  datatype XUser = XUser(id: string, name: string, username: string)

  /** An error entry of the response (`XError`); `type` is a reserved word here. */
  datatype XError = XError(kind: string, message: string)

  /** The `data` object of a response: a post without its author. */
  datatype PostData = PostData(
    id: string,
    text: string,
    createdAt: string,
    noteTweet: Option<XNoteTweet>,
    article: Option<XArticle>,
    entities: Option<XEntity>)

  /** The `includes` object of a response (the requested expansions). */
  datatype Expansions = Expansions(users: Option<seq<XUser>>)

  /** A decoded response body (`ApiResponse`). */
  datatype ApiResponse = ApiResponse(
    data: Option<PostData>,
    includes: Option<Expansions>,
    errors: Option<seq<XError>>)

  /** A normalized post (`XPost`): the `data` fields plus the resolved author. */
  datatype XPost = XPost(
    id: string,
    text: string,
    createdAt: string,
    noteTweet: Option<XNoteTweet>,
    article: Option<XArticle>,
    entities: Option<XEntity>,
    author: XUser)

  /** Entity lists reached through an optional `entities` member (`e?.urls ?? []`). */
  function UrlsOf(e: Option<XEntity>): seq<XUrl> {
    if e.Some? then e.value.UrlList() else []
  }

  function MentionsOf(e: Option<XEntity>): seq<XMention> {
    if e.Some? then e.value.MentionList() else []
  }
}
